=== FILE: README.md ===
# EPubHelper: a Dafny model of EPubParser's ZIP layer

EPubParser reads EPUB books. Its `EPubHelper` class is the part that deals
with the EPUB file as a ZIP container, on top of minizip and Foundation's
FileManager:

- `validateZipAt` checks the EPUB packaging rule on the first 58 bytes of the
  file: a ZIP local file header for an entry named `mimetype`, with no extra
  field, whose stored bytes are `application/epub+zip`.
- `entriesOfZipAt` lists the entry names.
- `dataOf` reads one entry, found by a case-insensitive name comparison.
- `unzipAt` prepares a destination directory and extracts every entry into it.

All four refuse a path that does not exist or whose extension, lower-cased,
is not `epub` or `zip`. Each failure they detect themselves is an
`UnzipError` case that carries the offending path or URL. The two FileManager
calls that prepare `unzipAt`'s destination (`removeItem` at line 230,
`createDirectory` at line 235) throw Foundation errors instead. The model
stands in for those with one extra case, `SystemError`, carrying the
destination path.

The model replaces the outside world with values:

- The file system is a `Volume`, a map from paths to items. A file carries
  its raw contents and, when minizip can open it, the sequence of its entries
  in storage order.
- An `Entry` records what minizip lets the helper observe:
  - the stored name, which may hold a NUL;
  - the bytes its read stream delivers, and whether that stream ends with a
    failing read;
  - whether closing it reports a CRC mismatch;
  - whether it opens with the password argument (`Lock`);
  - its DOS date.
- The destination directory is a `Dest`, a map from paths relative to it to
  directories and files (file contents plus the applied date). The
  destination itself is `""`.
- The destination's status on disk, and whether the one FileManager call that
  prepares it succeeds, are parameters of `UnzipAt`.

Modules follow the source:

- `Errors`: `UnzipError`, `Url`, `Option` and `Result`.
- `Text`: ASCII decoding, case folding, C strings.
- `Paths`: path extensions, destination keys, intermediate directories.
- `EntryNames`: the reported name and the directory flag.
- `Packaging`: the 58-byte header rule.
- `Archive`: entries, volumes, the password argument, dates.
- `Destination`: directory creation, file writing, the preparation table.
- `EntryLoop`: the private `unzipAt(_:password:options:)` loop.
- `EntryRead`: `dataOf`'s lookup and read loop.
- `EPubHelper`: the public operations.
- `Scenarios`: the repository's unit test, restated on a sample volume.

Where the code and its documentation disagree, the model follows the code:

- `fileExists(atPath:)` is true for a folder. A folder named `x.epub` passes
  the first two checks of every operation and then fails to open. It is not
  reported as missing.
- At lines 321-324, a file entry that finds its target already present, with
  `overwrite` off, does not skip itself. The current entry is closed and the
  cursor is moved on. The target is then still opened for writing, which
  empties it. Reading from the closed entry delivers nothing, and neither
  close reports a CRC error. The cursor is moved on a second time, so the
  following entry is neither reported nor extracted (`DuplicateHidesFollower`,
  `CollisionSkipsFollower`).
- With `overwrite` on, an existing destination directory is removed and not
  recreated before extraction. The first entry's `createDirectory(...,
  withIntermediateDirectories: true)` brings it back. Both preparations
  therefore start the loop from an empty destination.
- `unzipAt` with an empty `toPath` does not extract. When preparing that
  destination succeeds, the loop sees an empty `toPath` and only lists.
- Lines 115-116 read a native `UInt32` through a pointer to a 2-byte slice.
  The evident intent is the little-endian 16-bit field, and that is what is
  modelled (`LeU16`).
- The year of a stored date is passed to `DateComponents` as it is; only the
  month is shifted by one.
- Extraction does not guard against entry names containing `..`. The target
  is `toPath` joined with the name by NSString's `appendingPathComponent`
  (line 302), so a name starting with `/` still lands under `toPath`;
  only `..` components reach outside it. In the model a key is the reported
  name without its trailing slashes, and keys are compared as plain,
  case-sensitive strings: `.` and `..` components are never resolved and a
  leading `/` is kept. So the model cannot show an entry escaping the
  destination, and it treats `a/b`, `a/./b` and `/a/b` as three different
  paths.
- The compression method of the `mimetype` entry is never looked at
  (`UncheckedBytesIgnored`).

## Model

| member | source | states |
|---|---|---|
| Archive.PasswordArgument | EPubParser/EPubHelper.swift:263-267 | a password is handed to minizip exactly when one is given and it is ASCII, and then unchanged; a non-ASCII password silently opens as if none was given |
| Archive.Opens | EPubParser/EPubHelper.swift:263-267 | a plain entry opens with any password argument, an encrypted one only with its own key, a damaged one never; `PasswordArgument` says which argument minizip gets |
| Archive.ReadChunk | EPubParser/EPubHelper.swift:193 | one read delivers between 1 and 4096 bytes exactly while payload remains, those bytes are the next ones of the payload, and a failing read happens only at the end of a faulty stream |
| Archive.DateFrom | EPubParser/EPubHelper.swift:71-82 | every field of the stored time is carried over, the month shifted from 0-based to 1-based, so a valid stored month gives a month from 1 to 12 and back |
| Archive.DateFromIsInjective | EPubParser/EPubHelper.swift:71-82 | the date conversion loses no field: distinct stored times give distinct dates |
| Archive.StampOf | EPubParser/EPubHelper.swift:337-343 | an extracted file is stamped exactly when its stored DOS date is non-zero, with the month made 1-based and the year kept |
| Destination.Writable | EPubParser/EPubHelper.swift:326 | `fopen(fullPath, "wb")` succeeds exactly when every directory above the key exists as a directory and the key itself is not a directory |
| Destination.MakeDirs | EPubParser/EPubHelper.swift:313-319 | creating intermediate directories never changes or removes anything present, adds only directories among those asked for, and when no file is in the way every one asked for exists afterwards |
| Destination.WriteFile | EPubParser/EPubHelper.swift:326-344 | opening a file for writing changes nothing but its own path; when every directory above it exists and it is not a directory it ends up holding the bytes and the date, otherwise the destination is unchanged |
| Destination.PrepareDestination | EPubParser/EPubHelper.swift:225-236 | an existing file gives notDirectory, an existing directory without overwrite gives alreadyExistsDirectory, and FileManager failures propagate; success means the directory was removed (overwrite) or created (absent), each case if and only if |
| Destination.ExistingDirectoryNeverReused | EPubParser/EPubHelper.swift:225-236 | an existing destination directory is never extracted into as it stands: it is removed or the call fails, and without overwrite it always fails |
| EntryNames.IsDirectoryName | EPubParser/EPubHelper.swift:291-296 | an entry is a directory when the last byte of its stored name, NUL or not, is a slash or a backslash; `DirectoryFlagMatchesReportedName` and `NulHidesDirectoryFlag` relate it to the reported name |
| EntryNames.NormalizeEntryName | EPubParser/EPubHelper.swift:298-300 | backslashes are translated only when the name holds some separator; `NormalizeIsTranslation` and `NormalizedNameShape` state what that yields |
| EntryNames.ReportedName | EPubParser/EPubHelper.swift:283-300 | the reported name is never longer than the stored one and holds neither NUL nor backslash |
| EntryNames.ToUnixSeparators | EPubParser/EPubHelper.swift:298-300 | the translation keeps the length and replaces each backslash by a slash, leaving every other character in place |
| EntryNames.NormalizeIsTranslation | EPubParser/EPubHelper.swift:298-300 | the separator test before the replacement is only a shortcut: the reported name is always the full translation |
| EntryNames.NormalizedNameShape | EPubParser/EPubHelper.swift:298-300 | a reported name has the stored name's length, holds no backslash, and differs from it only where the stored name had one |
| EntryNames.NormalizeIsIdempotent | EPubParser/EPubHelper.swift:298-300 | normalizing an already reported name changes nothing |
| EntryNames.NormalizeKeepsUnixNames | EPubParser/EPubHelper.swift:298-300 | a stored name without backslash is reported as it is stored |
| EntryNames.DirectoryFlagMatchesReportedName | EPubParser/EPubHelper.swift:280-300 | for a stored name without NUL, the entry counts as a directory exactly when its reported name ends in a slash, whichever separator was stored |
| EntryNames.NulHidesDirectoryFlag | EPubParser/EPubHelper.swift:283-296 | the directory flag looks at the last stored byte, past any NUL, so the stored name `a/` NUL `x` is reported as `a/` yet handled as a file |
| EntryLoop.KeyOf | EPubParser/EPubHelper.swift:302 | an entry lands at `toPath` joined with its reported name, which is the key `Paths.Key` derives from that name |
| EntryLoop.Fault | EPubParser/EPubHelper.swift:263-289 | an entry stops the loop with unzipFail on the archive path when it does not open (lines 263-270) or its C name is empty (lines 286-289), and otherwise with crcError when CRCs are checked and its close reports a mismatch (lines 305-308, 346-349) |
| EntryLoop.PlaceEntry | EPubParser/EPubHelper.swift:302-344 | extracting one entry keeps everything not at its own key and adds only directories above it (or at it, for a directory entry). It collides exactly when it is a file entry, overwrite is off and its key exists once the directories are made, and always when the key existed before |
| EntryLoop.PlaceEntryWrites | EPubParser/EPubHelper.swift:321-344 | when the target can be opened for writing it ends up holding the entry's payload, or nothing after a collision, with the stored date; otherwise only the directories changed |
| EntryLoop.Place | EPubParser/EPubHelper.swift:313-344 | the same step on a key, a directory flag and a list of directories: a collision happens exactly when a non-directory key exists after directory creation with overwrite off, and never for a key that neither existed nor was among the directories made; a writable target holds the payload (nothing after a collision) and the date, an unwritable one leaves only the directories changed |
| EntryLoop.Walk | EPubParser/EPubHelper.swift:262-351 | the entry loop raises only unzipFail or crcError on the archive path, reports at most one name per entry, and leaves the destination untouched when only listing |
| EntryLoop.Following | EPubParser/EPubHelper.swift:321-324 | the loop continues with a strict suffix of the entries; without a collision it is the very next entry, after one it may skip a further entry |
| EntryLoop.ListingNames | EPubParser/EPubHelper.swift:303 | the reported list has one name per entry, in storage order, each the entry's normalized name |
| EntryLoop.ListingReportsAllNames | EPubParser/EPubHelper.swift:262-311 | listing succeeds exactly when no entry fails to open, has an empty name, or (with CRC checking on) has a bad CRC; it then reports every name, directories included, and touches nothing; otherwise its error is the fault of the first faulty entry |
| EntryLoop.EmptyNameAborts | EPubParser/EPubHelper.swift:285-289 | an entry whose stored name reads as empty aborts the whole call with unzipFail on the archive path, in listing and in extraction, and no names are returned |
| EntryLoop.CrcFailureAbortsExtraction | EPubParser/EPubHelper.swift:346-349 | during extraction with CRC checking on, an entry that does not collide and has a bad CRC aborts the whole call with crcError, and no names are returned |
| EntryLoop.ListingWithoutCrcNeverReportsCrc | EPubParser/EPubHelper.swift:147-149 | with CRC checking off, the only error a listing can raise is unzipFail on the archive path |
| EntryLoop.OverwritingExtractionListsLikeListing | EPubParser/EPubHelper.swift:262-351 | with overwrite on, extraction succeeds or fails exactly as a listing with the same CRC setting does, with the same names or the same error |
| EntryLoop.ExtractionFrame | EPubParser/EPubHelper.swift:302-344 | a successful extraction keeps every path that existed, and leaves unchanged every existing path that is no entry's key |
| EntryLoop.ExtractionAddsOnlyEntryPaths | EPubParser/EPubHelper.swift:313-344 | every path a successful extraction adds is the key of some entry or a directory that entry asked `createDirectory` for, and an added path that is no entry's key is a directory |
| EntryLoop.ExtractionTurn | EPubParser/EPubHelper.swift:302-351 | an entry that opens, has a name and passes (or skips) the CRC check adds its name in front of what the rest of the loop reports |
| EntryLoop.DirsToCreateShape | EPubParser/EPubHelper.swift:313-319 | the directories asked for are all those above the entry's key, plus the key itself exactly for a directory entry |
| EntryLoop.PlaceUnobstructed | EPubParser/EPubHelper.swift:313-344 | when no file lies at or above an entry's key, and nothing lies at a file entry's key, the entry does not collide and ends up materialized with its payload and date |
| EntryLoop.PlaceKeepsSound | EPubParser/EPubHelper.swift:313-344 | on an archive whose keys are distinct and whose files lie on no other entry's way, extracting one entry leaves the destination clear for the rest |
| EntryLoop.CleanExtractionPlacesEveryEntry | EPubParser/EPubHelper.swift:262-351 | extracting such an archive without faulty entries into a clear destination succeeds whatever overwrite says, reports every name in order, and leaves every entry at its key: a directory, or a file with its payload and date |
| EntryLoop.FreshDestinationIsSound | EPubParser/EPubHelper.swift:225-236 | a freshly prepared destination is clear for any archive with no file entry keyed on the destination itself |
| EntryLoop.CollisionSkipsFollower | EPubParser/EPubHelper.swift:321-324 | after a collision the next entry is never looked at: whatever it is, the outcome of the loop is the same |
| EntryLoop.DuplicateHidesFollower | EPubParser/EPubHelper.swift:321-350 | an archive storing the same top-level file twice and then any entry, extracted without overwrite, succeeds with the first two names only and leaves the file empty |
| EntryLoop.DuplicateWithOverwriteReportsAll | EPubParser/EPubHelper.swift:262-351 | the same archive extracted with overwrite reports all three names |
| EntryRead.Locate | EPubParser/EPubHelper.swift:174-179 | the lookup finds nothing exactly when no entry's name matches ignoring case; otherwise it finds the first match in storage order |
| EntryRead.NameMatches | EPubParser/EPubHelper.swift:171-176 | an entry matches when `strcasecmp` of its C name and the ASCII C string of the name asked for returns 0, i.e. the two are equal after folding A-Z |
| EntryRead.LocateIgnoresCase | EPubParser/EPubHelper.swift:174-176 | asking for a name in another case finds the same entry |
| EntryRead.DrainEntry | EPubParser/EPubHelper.swift:190-199 | the read loop returns the entry's whole payload, a failing last read included, after one call per 4096-byte block (a partial block counts) and one final empty call |
| EntryRead.ReadNamed | EPubParser/EPubHelper.swift:171-202 | a non-ASCII name gives encodingError, an unmatched one fileNotFound, an entry that does not open with the password unzipFail, each if and only if; success returns the payload of a matching entry that opens; an ASCII name whose first match opens always succeeds with that entry's payload |
| EntryRead.ReadNamedEntry | EPubParser/EPubHelper.swift:171-202 | running the read loop gives the same outcome, and on success the payload of the first matching entry |
| Packaging.LeU16 | EPubParser/EPubHelper.swift:115-116 | a 2-byte length field is below 65536 and is zero exactly when both bytes are |
| Packaging.ConstantsAreAscii | EPubParser/EPubHelper.swift:120-124 | the three expected strings are ASCII, and `PK` encodes as 0x50 0x4B |
| Packaging.HeaderAccepted | EPubParser/EPubHelper.swift:113-126 | the test as written: three slices decoded as ASCII and two length fields compared; `HeaderAcceptedIffMimetypeFirst` states which bytes that accepts |
| Packaging.HeaderAcceptedIffMimetypeFirst | EPubParser/EPubHelper.swift:113-126 | decoding three slices as ASCII and comparing the two length fields accepts exactly the headers that hold `PK`, name length 8, extra length 0, `mimetype` and `application/epub+zip` byte for byte |
| Packaging.EveryCheckedByteMatters | EPubParser/EPubHelper.swift:113-126 | changing any byte of the signature or of bytes 26 to 57 of an accepted header makes it rejected |
| Packaging.UncheckedBytesIgnored | EPubParser/EPubHelper.swift:113-126 | bytes 2 to 25 (version, flags, compression method, time, CRC, sizes) and everything after byte 57 never change the verdict |
| Packaging.MimetypeFirstIgnoresTail | EPubParser/EPubHelper.swift:110-118 | what follows the first 58 bytes does not matter |
| Packaging.ConformingHeader | EPubParser/EPubHelper.swift:86-88 | a stored `mimetype` entry header of exactly 58 bytes passes the rule |
| Paths.StripTrailingSlashes | EPubParser/EPubHelper.swift:46-48 | the result is a prefix of the path that does not end in a slash, and only slashes were dropped |
| Paths.StartAfterLast | EPubParser/EPubHelper.swift:46-48 | the position found is right after the last occurrence of the character, and nothing after it is that character |
| Paths.PathExtension | EPubParser/EPubHelper.swift:46-48 | an extension never holds a dot or a slash; a dot that begins the last component does not start one (`HiddenNameHasNoExtension`) |
| Paths.IsSupportedPath | EPubParser/EPubHelper.swift:106 | a path is supported when its extension, lower-cased, is one of `epub` and `zip`; `SupportedIffKnownExtension` states the resulting rule for `base.ext` |
| Paths.TrailingSlashKeepsExtension | EPubParser/EPubHelper.swift:46-48 | a trailing slash changes neither the extension nor the verdict of the extension check, so `Book.epub/` counts as an `epub` path |
| Paths.DotInDirectoryIgnored | EPubParser/EPubHelper.swift:46-48 | a dot in a directory name is no extension: `books.epub/Sample` has none and is refused |
| Paths.Key | EPubParser/EPubHelper.swift:302 | an entry's key in the destination is its name minus the trailing slashes that `appendingPathComponent` drops, and never ends in a slash |
| Paths.AfterLastOfAppend | EPubParser/EPubHelper.swift:46-48 | appending text free of a character leaves the text after that character's last occurrence extended by exactly that text |
| Paths.ExtensionOfDottedName | EPubParser/EPubHelper.swift:46-48 | the extension of `base.ext` is `ext` when `ext` has no dot or slash and `base` ends in a name (not empty, no trailing slash), whatever else `base` holds |
| Paths.HiddenNameHasNoExtension | EPubParser/EPubHelper.swift:46-48 | a last component that is a dot followed by a name, such as `books/.epub`, has no extension, so the extension check refuses it |
| Paths.SupportedIffKnownExtension | EPubParser/EPubHelper.swift:86 | the supported-archive check accepts `base.ext`, with `base` ending in a name, exactly when `ext` lower-cased is `epub` or `zip`, so `.EPUB` passes and `.cbz` does not |
| Paths.UpperCaseExtensionSupported | EPubParser/EPubHelper.swift:106 | a path whose last component is a name followed by `.EPUB` passes the extension check |
| Paths.NoDotNotSupported | EPubParser/EPubHelper.swift:106-108 | a path without any dot has no extension and is always refused |
| Paths.Ancestors | EPubParser/EPubHelper.swift:313-319 | every intermediate directory is a proper prefix of the path ending right before a slash |
| Paths.AncestorsAreAllPrefixes | EPubParser/EPubHelper.swift:313-319 | every prefix ending right before a slash is an intermediate directory: none is left out |
| Paths.AncestorsShortestFirst | EPubParser/EPubHelper.swift:313-319 | the intermediate directories come outermost first |
| Text.AsciiBytes | EPubParser/EPubHelper.swift:171 | the ASCII encoding has one byte per character, equal to its code |
| Text.AsciiDecode | EPubParser/EPubHelper.swift:114-118 | ASCII decoding yields a string exactly when every byte is below 128, one character per byte with the same code |
| Text.Chars | EPubParser/EPubHelper.swift:114-118 | one character per byte, each with the byte's code |
| Text.DecodeIsEncodingInverse | EPubParser/EPubHelper.swift:114-124 | bytes decode to an ASCII string exactly when they are that string's encoding |
| Text.SameIgnoringCase | EPubParser/EPubHelper.swift:174-176 | the comparer handed to `unzLocateFile`: `strcasecmp` returns 0 exactly when both strings are equal after folding A-Z to lower case |
| Text.LowerChar | EPubParser/EPubHelper.swift:175 | only the letters A to Z change, each to its lower-case letter |
| Text.Lower | EPubParser/EPubHelper.swift:106 | lower-casing keeps the length and folds each character on its own |
| Text.LowerIsIdempotent | EPubParser/EPubHelper.swift:106 | lower-casing twice is lower-casing once, and leaves no capital letter |
| Text.LowerKeepsLowercase | EPubParser/EPubHelper.swift:86 | text without capitals, such as the two supported extensions, is its own lower-case form |
| Text.CString | EPubParser/EPubHelper.swift:283-285 | a C string is the prefix of the stored characters up to the first NUL, which it does not contain |
| Text.CStringOfNulFree | EPubParser/EPubHelper.swift:283-285 | stored characters without NUL read back whole |
| EPubHelper.Exists | EPubParser/EPubHelper.swift:102 | `fileExists(atPath:)` holds for any item at the path, a folder as well as a file |
| EPubHelper.Contents | EPubParser/EPubHelper.swift:110 | `Data(contentsOf:)` yields bytes only for a readable file at the path, never for a folder or a missing path |
| EPubHelper.Entries | EPubParser/EPubHelper.swift:245-251 | `unzOpen64` followed by `unzGoToFirstFile` succeeds exactly when the path holds a file that is a ZIP container with at least one entry, and yields its entries in storage order |
| EPubHelper.ValidateZipAt | EPubParser/EPubHelper.swift:94-126 | a non-file URL gives notFile, a missing path fileNotFound, a bad extension fileNotSupport, unreadable or short contents openFail, each if and only if and in that order; the file passes exactly when its header holds the `mimetype` entry first, and fails with invalidPackaging exactly when a header of 58 bytes or more does not |
| EPubHelper.ValidateZipAtPath | EPubParser/EPubHelper.swift:90-92 | a plain path is always a file URL, so notFile never arises |
| EPubHelper.ValidationReadsOnlyHeader | EPubParser/EPubHelper.swift:110-126 | appending anything to any file of at least 58 bytes, archive or not, does not change the verdict |
| EPubHelper.ConformingFileIsValid | EPubParser/EPubHelper.swift:94-126 | a file at `base.ext`, with `base` ending in a name and `ext` some case of `epub` or `zip`, starting with a conforming header, passes validation whatever follows |
| EPubHelper.UnzipWith | EPubParser/EPubHelper.swift:244-251 | openFail is raised exactly when minizip cannot open the file or find a first entry; otherwise the outcome is the loop's, and the loop raises only unzipFail or crcError |
| EPubHelper.EntriesOfZipAt | EPubParser/EPubHelper.swift:136-150 | the listing succeeds exactly when the path exists, is supported, opens, and no entry fails to open or has an empty name; then it returns every entry's name in storage order; its only errors are fileNotFound, fileNotSupport, openFail and unzipFail. A missing path gives fileNotFound, an unsupported one fileNotSupport, an archive that does not open openFail, and some entry that fails to open or has an empty name unzipFail, the last two if and only if |
| EPubHelper.EntriesOfZipAtUrl | EPubParser/EPubHelper.swift:129-134 | a non-file URL gives notFile, exactly; a file URL is listed by its path |
| EPubHelper.DataOf | EPubParser/EPubHelper.swift:152-202 | a missing archive gives fileNotFound and an unsupported one fileNotSupport; openFail arises exactly when the archive does not open; otherwise the named entry is read; success returns the payload of an entry whose name matches, and an ASCII name whose first match opens always succeeds with that entry's payload |
| EPubHelper.ReadDataOf | EPubParser/EPubHelper.swift:152-202 | running the read loop gives exactly the outcome described by DataOf |
| EPubHelper.EncodingCheckedAfterOpening | EPubParser/EPubHelper.swift:155-173 | a non-ASCII entry name is reported as encodingError exactly when the archive exists, is supported and opens |
| EPubHelper.UnzipAt | EPubParser/EPubHelper.swift:214-242 | a missing archive gives fileNotFound, exactly, and an unsupported one fileNotSupport; a failing preparation of the destination is reported as it is; otherwise the loop extracts with CRC checking on and the overwrite flag given; notFile never arises |
| EPubHelper.UnzipAtUrl | EPubParser/EPubHelper.swift:205-212 | a non-file archive URL gives notFile on it, exactly; a non-file destination URL gives notFile on the destination; two file URLs are extracted by their paths |
| EPubHelper.DestinationCheckedBeforeArchive | EPubParser/EPubHelper.swift:225-238 | when the destination cannot be prepared, that error is reported whatever the archive holds, and never openFail |
| EPubHelper.ExtractionReportsListedNames | EPubParser/EPubHelper.swift:136-150 | a successful extraction with overwrite reports exactly the names the listing of the same archive returns |
| Scenarios.SampleVolumeHoldsSamples | EPubParserTests/EPubParserTests.swift:38 | the bundle holding `Sample.epub` and `Sample.cbz` is a volume where the test's relative path names nothing |
| Scenarios.MissingArchiveIsNotFound | EPubParserTests/EPubParserTests.swift:29-36 | listing the relative path `Sample.epub` fails with fileNotFound on that path |
| Scenarios.SampleOpens | EPubParserTests/EPubParserTests.swift:38-47 | the sample exists, has a supported extension, and opens to its five entries |
| Scenarios.SampleListing | EPubParserTests/EPubParserTests.swift:40-51 | listing the sample returns its five names in storage order |
| Scenarios.SampleMimetype | EPubParserTests/EPubParserTests.swift:53-54 | reading `mimetype` from the sample returns bytes that decode as ASCII to `application/epub+zip` |
| Scenarios.SampleDirectoryIsNotAnEntry | EPubParserTests/EPubParserTests.swift:56-58 | reading `OEBPS`, a directory with no entry of its own, fails with fileNotFound on that name |
| Scenarios.SampleIsValid | EPubParserTests/EPubParserTests.swift:63-67 | the sample passes validation |
| Scenarios.CbzIsNotSupported | EPubParserTests/EPubParserTests.swift:69-76 | listing the `.cbz` copy of the sample fails with fileNotSupport on its path, although it would open |
| Scenarios.WebUrlIsNotFile | EPubParserTests/EPubParserTests.swift:78-85 | listing a web URL fails with notFile on that URL, whatever the volume holds |
| Scenarios.SampleIsClean | EPubParserTests/EPubParserTests.swift:40-46 | the sample's entry names are distinct and none lies on another's way |
| Scenarios.SampleExtraction | EPubParserTests/EPubParserTests.swift:87-95 | extracting the sample with overwrite on succeeds whether the destination does not exist yet or is an existing directory, and every reported name then exists under the destination; a file in the destination's place gives notDirectory |
| Scenarios.CleanArchiveExtracts | EPubParser/EPubHelper.swift:262-351 | a faultless archive with distinct, non-empty keys and no file on another entry's way extracts into a fresh destination, reporting every name and placing every key |

## Left out

- minizip itself is not modelled: decompression, decryption and the central directory. An entry is the record of what its calls report. Decryption is the `Lock` of an entry. A CRC mismatch is a flag reported on closing.
- Failures of `unzGetCurrentFileInfo64` (lines 274-278) and of `unzGoToNextFile` other than reaching the end are not modelled: the entry list is what minizip reads.
- EntryRead.Locate: `unzLocateFile` ignores names of 256 characters or more. The lookup in `Locate` has no such limit, so the model finds entries the program reports as fileNotFound.
- Entry names are characters, not UTF-8 bytes. The model does not decode, and does not treat the invalid sequences `String(cString:)` repairs.
- NSString path handling is reduced to what the helper relies on: trailing-slash removal and the extension of the last component. `.` and `..` components are not resolved (see `Paths.Key` below); `~` and the path that `URL.path` returns are taken as given.
- FileManager errors from removing or creating the destination are collapsed into one `SystemError` case carrying the destination path. The model does not say which Foundation error it was.
- Errors from creating an entry's directories (line 319) and from setting the modification date (line 342) are swallowed by the source. In the model a blocked directory chain simply stops; the date is applied whenever the file was written.
- `fopen` fails in the model only because of a missing directory above the file or a directory at its path. Permission and disk-full failures, and short `fwrite`s, are left out.
- `Calendar.date(from:)` and its fallback to the current date are left out. A stamp is the date components as built.
- The `EPubParser.swift` façade and the unit test's file-system setup are not part of this model. The test's steps are restated in `Scenarios`.
- Paths.Key: a key is the reported name as a string, compared case-sensitively. The file system resolves `.` and `..` components and folds repeated slashes, and `appendingPathComponent` joins a leading `/` under `toPath`; keys do none of this. So `/etc/x` and `etc/x` are two keys for one file on disk, and `Ancestors("/etc/x")` holds the empty key. The default Apple volumes also compare names case-insensitively, so `A.txt` and `a.txt` are one file there and two keys here.
- EntryLoop.CleanExtractionPlacesEveryEntry: "every entry lies at its key" is stated on those unresolved, case-sensitive keys. For names with `..` the program writes outside the destination. For `a/./b` and `a/b`, for `/a/b` and `a/b`, and on a case-insensitive volume for `A.txt` and `a.txt`, it writes one file. With `overwrite` off, the second of such a pair then collides, is emptied and skips the entry after it (lines 321-324). The model calls such an archive clean and places both.
- EntryLoop.ExtractionFrame: "nothing outside the visited keys changes" is likewise stated on unresolved keys. It says nothing about paths outside the destination that a `..` name reaches in the program.
- EntryLoop.Walk: a bad CRC is a flag of the entry that closing reports whenever CRCs are checked, whether or not the entry was read. minizip compares the CRC only when the whole entry has been read. The program reads nothing while listing, after an `fopen` that fails, or past a failing read. In those cases it reports crcError only for an empty entry, while the model reports it for every flagged entry.
- EntryLoop.OverwritingExtractionListsLikeListing: it relies on that flag. In the program, an entry with a bad CRC that extraction reads in full fails the extraction but not a listing with CRC checking on. The same simplification is behind the crcError cases of `Fault`, `ListingReportsAllNames` and `CrcFailureAbortsExtraction`.
- EntryLoop.Walk: an error result carries no destination. The program does not roll back, so the files written before an entry fails with unzipFail or crcError stay on disk (lines 326-349); the model does not say what the destination holds after an error.
- EPubHelper.UnzipAt: on an error it returns no destination either. With `overwrite` on, the program has already removed the old destination at line 230 when `unzOpen64` fails at line 245 or the loop fails later. The destination's status and the outcome of the FileManager call are parameters, independent of `vol`. So an archive inside the destination, such as `toPath + "/b.epub"` with `overwrite` on, is deleted with it at line 230 and the program fails with openFail, while the model still extracts it from `vol`.
- EPubHelper.ValidateZipAtPath: `URL(fileURLWithPath:)` (line 91) makes a relative path absolute against the current directory, so the program's errors at lines 103, 107, 111 and 125 carry the absolute path. The model has no current directory and passes the path on as given. The `String` overload of `entriesOfZipAt` does keep the path as given, and so does the model.
- EntryLoop.ListingReportsAllNames: its crcError case uses the entry's CRC flag. The program's listing reads nothing, so with CRC checking on it reports crcError only for an empty entry whose CRC is wrong.
- EntryLoop.CrcFailureAbortsExtraction: the flag is reported whenever the entry did not collide, even when `fopen` failed or a read failed and the entry was not read in full. The program reports crcError then only for an empty entry.
- Text.Lower: folds only the ASCII letters A-Z. That is exactly `strcasecmp` for the entry lookup, but Swift's `lowercased()` at line 106 is a Unicode fold and also changes letters outside ASCII. The verdict of `IsSupportedPath` is the same either way, since `epub` and `zip` are plain ASCII and no other letter folds to one of theirs, but `Lower` itself does not promise Swift's result for other text.
- EntryRead.DrainEntry: the bytes are the whole payload and the number of calls is exact, but the `NSMutableData` buffer reuse is not modelled.
- Scenarios.SampleExtraction: the sample's payloads other than `mimetype` are empty. Only their names and placement are stated, not the book's actual contents.

=== FILE: archive.dfy ===
/** The world the helper runs in, with minizip and FileManager replaced by
    plain values: a volume of named items, an archive as the sequence of its
    entries in storage order, and each entry as the record minizip would
    let the helper observe. */
module Archive {
  import opened Errors
  import opened Text

  /** Size of the read buffer handed to `unzReadCurrentFile`. */
  const UnzipBufferSize: nat := 4096

  /** What opening an entry for reading reports: a plain entry opens with or
      without a password, an encrypted one only with its key, a damaged one
      never. */
  datatype Lock = Plain | Encrypted(key: string) | Damaged

  /** minizip's `tm_unz`: the broken-down DOS time, `mon` counted from 0. */
  datatype TmUnz = TmUnz(sec: int, min: int, hour: int, mday: int, mon: int, year: int)

  /** One stored entry.
      - `rawName`: the `size_filename` characters of the stored name;
      - `payload`: the decompressed bytes the read stream delivers;
      - `streamFault`: the stream ends with a failing read instead of an
        end-of-entry read;
      - `crcOk`: closing the entry reports no CRC mismatch;
      - `dosDate`, `tmuDate`: the stored timestamp, raw and broken down. */
  datatype Entry = Entry(
    rawName: string,
    payload: seq<byte>,
    streamFault: bool,
    crcOk: bool,
    lock: Lock,
    dosDate: nat,
    tmuDate: TmUnz)

  /** An item of the file system at some path.  For a regular file,
      `contents` is None when `Data(contentsOf:)` fails, and `archive` is
      None when minizip cannot open it as a ZIP container. */
  datatype Item = Folder | File(contents: Option<seq<byte>>, archive: Option<seq<Entry>>)

  type Volume = map<string, Item>

  /** `password?.cString(using: .ascii)`: a password that is not ASCII is
      dropped and the entry is opened as if none was given. */
  function PasswordArgument(password: Option<string>): (arg: Option<string>)
    ensures arg.Some? <==> password.Some? && IsAscii(password.value)
    ensures arg.Some? ==> arg == password
  {
    match password
    case Some(p) => if IsAscii(p) then Some(p) else None
    case None => None
  }

  /** Whether `unzOpenCurrentFile(Password)` succeeds: a plain entry opens
      with any argument, an encrypted one with its key only, a damaged one
      never. */
  predicate Opens(lock: Lock, arg: Option<string>) {
    match lock
    case Plain => true
    case Encrypted(key) => arg == Some(key)
    case Damaged => false
  }

  /** The outcome of one `unzReadCurrentFile` call: a positive byte count, 0
      at the end of the entry, or a negative error code. */
  datatype ReadResult = Chunk(bytes: seq<byte>) | EndOfEntry | ReadFailure

  /** The read that follows the delivery of the first `pos` payload bytes. */
  function ReadChunk(e: Entry, pos: nat): (r: ReadResult)
    requires pos <= |e.payload|
    ensures r.Chunk? <==> pos < |e.payload|
    ensures r.Chunk? ==> 0 < |r.bytes| <= UnzipBufferSize
    ensures r.Chunk? ==> pos + |r.bytes| <= |e.payload| && r.bytes == e.payload[pos..pos + |r.bytes|]
    ensures r.ReadFailure? <==> pos == |e.payload| && e.streamFault
  {
    var n := if |e.payload| - pos < UnzipBufferSize then |e.payload| - pos else UnzipBufferSize;
    if n > 0 then Chunk(e.payload[pos..pos + n])
    else if e.streamFault then ReadFailure
    else EndOfEntry
  }

  /** The `DateComponents` built from a `tm_unz`. */
  datatype DateParts = DateParts(second: int, minute: int, hour: int, day: int, month: int, year: int)

  /** `Date.dateFrom(tmuDate:)`: the month becomes 1-based, every other field
      (the year included) is copied unchanged. */
  function DateFrom(t: TmUnz): (d: DateParts)
    ensures d.second == t.sec && d.minute == t.min && d.hour == t.hour
    ensures d.day == t.mday && d.year == t.year
    ensures d.month == t.mon + 1
    ensures 0 <= t.mon <= 11 <==> 1 <= d.month <= 12
  {
    DateParts(t.sec, t.min, t.hour, t.mday, t.mon + 1, t.year)
  }

  /** No field is lost: distinct times give distinct dates. */
  lemma DateFromIsInjective(t: TmUnz, u: TmUnz)
    requires DateFrom(t) == DateFrom(u)
    ensures t == u
  {
  }

  /** The modification date an extracted file receives, if any: only a
      non-zero stored DOS date is applied. */
  function StampOf(e: Entry): (s: Option<DateParts>)
    ensures s.None? <==> e.dosDate == 0
    ensures s.Some? ==> s.value.month == e.tmuDate.mon + 1 && s.value.year == e.tmuDate.year
  {
    if e.dosDate != 0 then Some(DateFrom(e.tmuDate)) else None
  }
}

=== FILE: destination.dfy ===
/** The destination directory of an extraction, seen as a map from paths
    relative to it (the root itself is "") to what lies there, together with
    the two FileManager/stdio effects extraction has on it: creating a chain
    of directories and opening a file for writing. */
module Destination {
  import opened Errors
  import opened Text
  import opened Paths
  import opened Archive

  datatype Node = Directory | Blob(data: seq<byte>, stamp: Option<DateParts>)

  type Dest = map<string, Node>

  /** A freshly created, empty destination. */
  const EmptyDest: Dest := map["" := Directory]

  /** `createDirectory(atPath:withIntermediateDirectories: true)` over the
      directories `dirs`, outermost first: missing ones are created, existing
      directories are kept, and the walk stops at the first one that is a
      file.  Its error is swallowed by the caller. */
  function MakeDirs(d: Dest, dirs: seq<string>): (r: Dest)
    ensures forall k :: k in d ==> k in r && r[k] == d[k]
    ensures forall k :: k in r && k !in d ==> k in dirs && r[k] == Directory
    ensures (forall a :: a in dirs && a in d ==> d[a] == Directory) ==>
              forall a :: a in dirs ==> a in r && r[a] == Directory
    decreases |dirs|
  {
    if dirs == [] then d
    else if dirs[0] in d && d[dirs[0]].Blob? then d
    else MakeDirs(if dirs[0] in d then d else d[dirs[0] := Directory], dirs[1..])
  }

  /** `fopen(path, "wb")` succeeds: every directory above the path exists
      and the path itself is not a directory. */
  predicate Writable(d: Dest, key: string) {
    && (forall a :: a in Ancestors(key) ==> a in d && d[a] == Directory)
    && !(key in d && d[key] == Directory)
  }

  /** `fopen(path, "wb")`, the writes and the date stamp: when the file can
      be opened it ends up holding `data`, otherwise nothing changes. */
  function WriteFile(d: Dest, key: string, data: seq<byte>, stamp: Option<DateParts>): (r: Dest)
    ensures forall k :: k in d ==> k in r
    ensures forall k :: k in d && k != key ==> r[k] == d[k]
    ensures forall k :: k in r && k !in d ==> k == key
    ensures Writable(d, key) ==> key in r && r[key] == Blob(data, stamp)
    ensures !Writable(d, key) ==> forall k :: k in r ==> k in d && r[k] == d[k]
  {
    if Writable(d, key) then d[key := Blob(data, stamp)] else d
  }

  /** What `fileExists(atPath:isDirectory:)` reports for the destination. */
  datatype DestStatus = Absent | ExistsAsFile | ExistsAsDirectory

  /** What preparing the destination did before the archive is opened. */
  datatype Preparation = Removed | Created

  /** Lines 225-236: the decision table on the destination's status and the
      `overwrite` flag.  `fileManagerOk` says whether the FileManager call
      the table selects (removing or creating the directory) succeeds; when
      it throws, that error propagates. */
  function PrepareDestination(toPath: string, status: DestStatus, overwrite: bool, fileManagerOk: bool): (r: Result<Preparation>)
    ensures r == Err(NotDirectory(toPath)) <==> status == ExistsAsFile
    ensures r == Err(AlreadyExistsDirectory(toPath)) <==> status == ExistsAsDirectory && !overwrite
    ensures r == Ok(Removed) <==> status == ExistsAsDirectory && overwrite && fileManagerOk
    ensures r == Ok(Created) <==> status == Absent && fileManagerOk
    ensures r == Err(SystemError(toPath)) <==> !fileManagerOk && (status == Absent || (status == ExistsAsDirectory && overwrite))
  {
    match status
    case ExistsAsFile => Err(NotDirectory(toPath))
    case ExistsAsDirectory =>
      if !overwrite then Err(AlreadyExistsDirectory(toPath))
      else if fileManagerOk then Ok(Removed)
      else Err(SystemError(toPath))
    case Absent =>
      if fileManagerOk then Ok(Created) else Err(SystemError(toPath))
  }

  /** An existing directory is never reused: the call either removes it or
      fails, and with `overwrite` off it always fails. */
  lemma ExistingDirectoryNeverReused(toPath: string, overwrite: bool, ok: bool)
    ensures PrepareDestination(toPath, ExistsAsDirectory, overwrite, ok) != Ok(Created)
    ensures !overwrite ==> PrepareDestination(toPath, ExistsAsDirectory, overwrite, ok).Err?
  {
  }
}

=== FILE: entry_loop.dfy ===
/** The entry loop of the private `unzipAt(_:password:options:)`: visit the
    entries in storage order, report each normalized name, and either only
    close each entry (listing) or materialize it under the destination
    (extraction). */
module EntryLoop {
  import opened Errors
  import opened Text
  import opened Paths
  import opened EntryNames
  import opened Archive
  import opened Destination

  /** The option dictionary with its defaults applied: an empty `toPath`
      selects listing, `overwrite` and `checkCrc` default to true. */
  datatype Options = Options(toPath: string, overwrite: bool, checkCrc: bool)

  /** What the loop returns: the reported names, and the destination as it
      was left. */
  datatype Visit = Visit(names: seq<string>, dest: Dest)

  /** The name reported for an entry. */
  function NameOf(e: Entry): string {
    ReportedName(e.rawName)
  }

  /** Where an entry lands under the destination. */
  function KeyOf(e: Entry): string {
    Key(NameOf(e))
  }

  /** The directory flag of an entry. */
  predicate IsDirEntry(e: Entry) {
    IsDirectoryName(e.rawName)
  }

  /** Directories `createDirectory` is asked for (lines 313-319): the
      entry itself and all above it for a directory entry, only those above
      it for a file. */
  function DirsToCreate(e: Entry): seq<string> {
    if IsDirEntry(e) then Ancestors(KeyOf(e)) + [KeyOf(e)] else Ancestors(KeyOf(e))
  }

  /** What extracting one entry did: whether it collided, and the
      destination afterwards. */
  datatype Placement = Placement(collides: bool, dest: Dest)

  /** Lines 302 and 313-344 for one entry: create the directories, test for
      a collision (the target exists, the entry is a file, `overwrite` is
      off), then open the target for writing and, when that succeeds, fill it
      with the payload (nothing, after a collision) and apply the stored
      date. */
  function PlaceEntry(e: Entry, overwrite: bool, dest: Dest): (p: Placement)
    ensures forall k :: k in dest ==> k in p.dest
    ensures forall k :: k in dest && k != KeyOf(e) ==> p.dest[k] == dest[k]
    ensures forall k :: k in p.dest && k !in dest && k != KeyOf(e) ==> k in DirsToCreate(e) && p.dest[k] == Directory
    ensures p.collides <==> !IsDirEntry(e) && !overwrite && KeyOf(e) in MakeDirs(dest, DirsToCreate(e))
    ensures KeyOf(e) in dest && !IsDirEntry(e) && !overwrite ==> p.collides
  {
    Place(KeyOf(e), IsDirEntry(e), DirsToCreate(e), e.payload, StampOf(e), overwrite, dest)
  }

  /** What extracting one entry leaves at its key: when the target can be
      opened for writing it holds the payload, or nothing after a collision,
      with the stored date; otherwise only the directories were made. */
  lemma PlaceEntryWrites(e: Entry, overwrite: bool, dest: Dest)
    ensures var p := PlaceEntry(e, overwrite, dest);
            && (Writable(MakeDirs(dest, DirsToCreate(e)), KeyOf(e)) ==>
                  KeyOf(e) in p.dest && p.dest[KeyOf(e)] == Blob(if p.collides then [] else e.payload, StampOf(e)))
            && (!Writable(MakeDirs(dest, DirsToCreate(e)), KeyOf(e)) ==> p.dest == MakeDirs(dest, DirsToCreate(e)))
  {
  }

  /** The same step on the entry's key, directory flag, directories to
      create, payload and date. */
  function Place(key: string, isDir: bool, dirs: seq<string>, data: seq<byte>, stamp: Option<DateParts>,
                 overwrite: bool, dest: Dest): (p: Placement)
    ensures forall k :: k in dest ==> k in p.dest
    ensures forall k :: k in dest && k != key ==> p.dest[k] == dest[k]
    ensures forall k :: k in p.dest && k !in dest && k != key ==> k in dirs && p.dest[k] == Directory
    ensures p.collides <==> !isDir && !overwrite && key in MakeDirs(dest, dirs)
    ensures key in dest && !isDir && !overwrite ==> p.collides
    ensures key !in dest && key !in dirs ==> !p.collides
    ensures Writable(MakeDirs(dest, dirs), key) ==>
              key in p.dest && p.dest[key] == Blob(if p.collides then [] else data, stamp)
    ensures !Writable(MakeDirs(dest, dirs), key) ==> p.dest == MakeDirs(dest, dirs)
  {
    var made := MakeDirs(dest, dirs);
    var collides := key in made && !isDir && !overwrite;
    Placement(collides, WriteFile(made, key, if collides then [] else data, stamp))
  }

  /** The entries the cursor reaches next: after a collision it has been
      moved on twice. */
  function Following(es: seq<Entry>, collides: bool): (r: seq<Entry>)
    requires es != []
    ensures |r| < |es| && r == es[|es| - |r|..]
    ensures forall x :: x in r ==> x in es
    ensures !collides ==> r == es[1..]
  {
    if collides && |es| >= 2 then es[2..] else es[1..]
  }

  /** The loop, lines 262-351, run on `es` (the entries from the cursor
      on).  A collision skips the following entry, and neither close then
      reports a CRC error. */
  function Walk(path: string, es: seq<Entry>, arg: Option<string>, opts: Options, dest: Dest): (r: Result<Visit>)
    ensures r.Err? ==> r.error == UnzipFail(path) || r.error == CrcError(path)
    ensures r.Ok? ==> |r.value.names| <= |es|
    ensures r.Ok? && opts.toPath == "" ==> r.value.dest == dest
    decreases |es|
  {
    if es == [] then Ok(Visit([], dest))
    else
      var e := es[0];
      if !Opens(e.lock, arg) || CString(e.rawName) == [] then Err(UnzipFail(path))
      else if opts.toPath == "" then
        if opts.checkCrc && !e.crcOk then Err(CrcError(path))
        else
          var rest :- Walk(path, es[1..], arg, opts, dest);
          Ok(Visit([NameOf(e)] + rest.names, rest.dest))
      else
        var p := PlaceEntry(e, opts.overwrite, dest);
        if !p.collides && opts.checkCrc && !e.crcOk then Err(CrcError(path))
        else
          var rest :- Walk(path, Following(es, p.collides), arg, opts, p.dest);
          Ok(Visit([NameOf(e)] + rest.names, rest.dest))
  }

  /** What stops the loop at an entry it visits normally: the entry does not
      open, its name is empty, or its CRC is wrong while CRCs are checked. */
  function Fault(path: string, e: Entry, arg: Option<string>, checkCrc: bool): Option<UnzipError> {
    if !Opens(e.lock, arg) then Some(UnzipFail(path))
    else if CString(e.rawName) == [] then Some(UnzipFail(path))
    else if checkCrc && !e.crcOk then Some(CrcError(path))
    else None
  }

  /** The names of all entries, in storage order. */
  function ListingNames(es: seq<Entry>): (names: seq<string>)
    ensures |names| == |es|
    ensures forall i :: 0 <= i < |es| ==> names[i] == NameOf(es[i])
  {
    if es == [] then [] else [NameOf(es[0])] + ListingNames(es[1..])
  }

  /** Listing: the loop succeeds exactly when no entry has a fault, and then
      reports every entry's name, directories included, in storage order,
      without touching any destination.  Otherwise it fails with the fault
      of the first faulty entry. */
  lemma {:induction false} ListingReportsAllNames(path: string, es: seq<Entry>, arg: Option<string>, opts: Options, dest: Dest)
    requires opts.toPath == ""
    ensures Walk(path, es, arg, opts, dest).Ok? <==> forall i :: 0 <= i < |es| ==> Fault(path, es[i], arg, opts.checkCrc).None?
    ensures Walk(path, es, arg, opts, dest).Ok? ==> Walk(path, es, arg, opts, dest).value == Visit(ListingNames(es), dest)
    ensures Walk(path, es, arg, opts, dest).Err? ==>
              exists k :: 0 <= k < |es| && Fault(path, es[k], arg, opts.checkCrc) == Some(Walk(path, es, arg, opts, dest).error)
                          && forall j :: 0 <= j < k ==> Fault(path, es[j], arg, opts.checkCrc).None?
    decreases |es|
  {
    if es != [] {
      var r := Walk(path, es, arg, opts, dest);
      if Fault(path, es[0], arg, opts.checkCrc).None? {
        ListingReportsAllNames(path, es[1..], arg, opts, dest);
        ListingTurn(path, es, arg, opts, dest);
        FaultFreeSplits(path, es, arg, opts.checkCrc);
        var rest := Walk(path, es[1..], arg, opts, dest);
        if rest.Err? {
          var k :| 0 <= k < |es[1..]| && Fault(path, es[1..][k], arg, opts.checkCrc) == Some(rest.error)
                   && forall j :: 0 <= j < k ==> Fault(path, es[1..][j], arg, opts.checkCrc).None?;
          FirstFaultShifts(path, es, arg, opts.checkCrc, k);
        }
      } else {
        assert r.error == Fault(path, es[0], arg, opts.checkCrc).value;
      }
    }
  }

  /** One listing turn on an entry without fault. */
  lemma ListingTurn(path: string, es: seq<Entry>, arg: Option<string>, opts: Options, dest: Dest)
    requires opts.toPath == "" && es != []
    requires Fault(path, es[0], arg, opts.checkCrc).None?
    ensures var rest := Walk(path, es[1..], arg, opts, dest);
            Walk(path, es, arg, opts, dest)
            == if rest.Ok? then Ok(Visit([NameOf(es[0])] + rest.value.names, rest.value.dest)) else rest
  {
  }

  /** No entry has a fault exactly when the first has none and no later one
      has. */
  lemma FaultFreeSplits(path: string, es: seq<Entry>, arg: Option<string>, checkCrc: bool)
    requires es != []
    ensures (forall i :: 0 <= i < |es| ==> Fault(path, es[i], arg, checkCrc).None?) <==>
            Fault(path, es[0], arg, checkCrc).None? && forall i :: 0 <= i < |es[1..]| ==> Fault(path, es[1..][i], arg, checkCrc).None?
  {
    if Fault(path, es[0], arg, checkCrc).None? && forall i :: 0 <= i < |es[1..]| ==> Fault(path, es[1..][i], arg, checkCrc).None? {
      forall i | 0 < i < |es|
        ensures Fault(path, es[i], arg, checkCrc).None?
      {
        assert es[i] == es[1..][i - 1];
      }
    }
  }

  /** The first faulty entry of the tail, seen from the whole sequence. */
  lemma FirstFaultShifts(path: string, es: seq<Entry>, arg: Option<string>, checkCrc: bool, k: nat)
    requires es != [] && k < |es| - 1
    requires Fault(path, es[0], arg, checkCrc).None?
    requires forall j :: 0 <= j < k ==> Fault(path, es[1..][j], arg, checkCrc).None?
    ensures es[k + 1] == es[1..][k]
    ensures forall j :: 0 <= j < k + 1 ==> Fault(path, es[j], arg, checkCrc).None?
  {
    forall j | 0 < j < k + 1
      ensures Fault(path, es[j], arg, checkCrc).None?
    {
      assert es[j] == es[1..][j - 1];
    }
  }

  /** An entry whose stored name reads as empty aborts the call with
      `unzipFail`, in either mode, and the names gathered so far are lost. */
  lemma EmptyNameAborts(path: string, e: Entry, rest: seq<Entry>, arg: Option<string>, opts: Options, dest: Dest)
    requires CString(e.rawName) == []
    ensures Walk(path, [e] + rest, arg, opts, dest) == Err(UnzipFail(path))
  {
    assert ([e] + rest)[0] == e;
  }

  /** During extraction with CRC checking on, an entry that does not collide
      and whose close reports a CRC mismatch aborts the call with
      `crcError`. */
  lemma CrcFailureAbortsExtraction(path: string, e: Entry, rest: seq<Entry>, arg: Option<string>, opts: Options, dest: Dest)
    requires opts.toPath != "" && opts.checkCrc
    requires Opens(e.lock, arg) && CString(e.rawName) != [] && !e.crcOk
    requires !PlaceEntry(e, opts.overwrite, dest).collides
    ensures Walk(path, [e] + rest, arg, opts, dest) == Err(CrcError(path))
  {
    assert ([e] + rest)[0] == e;
  }

  /** With CRC checking off, as `entriesOfZipAt` runs it, the only error the
      listing can raise is `unzipFail` on the archive path. */
  lemma ListingWithoutCrcNeverReportsCrc(path: string, es: seq<Entry>, arg: Option<string>, dest: Dest)
    ensures Walk(path, es, arg, Options("", true, false), dest).Err? ==>
              Walk(path, es, arg, Options("", true, false), dest).error == UnzipFail(path)
  {
    ListingReportsAllNames(path, es, arg, Options("", true, false), dest);
  }

  /** With `overwrite` on, extraction never takes the collision branch, so
      it reports the same names, and fails with the same error, as a listing
      that checks CRCs the same way. */
  lemma {:induction false} OverwritingExtractionListsLikeListing(
    path: string, es: seq<Entry>, arg: Option<string>, toPath: string, checkCrc: bool, dest: Dest, other: Dest)
    requires toPath != ""
    ensures var x := Walk(path, es, arg, Options(toPath, true, checkCrc), dest);
            var l := Walk(path, es, arg, Options("", true, checkCrc), other);
            && x.Ok? == l.Ok?
            && (x.Ok? ==> x.value.names == l.value.names)
            && (x.Err? ==> x.error == l.error)
    decreases |es|
  {
    if es != [] {
      var p := PlaceEntry(es[0], true, dest);
      OverwritingExtractionListsLikeListing(path, es[1..], arg, toPath, checkCrc, p.dest, other);
    }
  }

  /** Extraction keeps every path that existed, and leaves each existing path
      that is no entry's key as it was. */
  lemma {:induction false} ExtractionFrame(path: string, es: seq<Entry>, arg: Option<string>, opts: Options, dest: Dest)
    requires opts.toPath != ""
    requires Walk(path, es, arg, opts, dest).Ok?
    ensures forall k :: k in dest ==> k in Walk(path, es, arg, opts, dest).value.dest
    ensures forall k :: k in dest && (forall x :: x in es ==> k != KeyOf(x)) ==>
              Walk(path, es, arg, opts, dest).value.dest[k] == dest[k]
    decreases |es|
  {
    if es != [] {
      var p := PlaceEntry(es[0], opts.overwrite, dest);
      ExtractionFrame(path, Following(es, p.collides), arg, opts, p.dest);
    }
  }

  /** Every path extraction adds is the key of an entry or a directory one
      of them asked for, and an added path that is no entry's key is a
      directory. */
  lemma {:induction false} ExtractionAddsOnlyEntryPaths(path: string, es: seq<Entry>, arg: Option<string>, opts: Options, dest: Dest)
    requires opts.toPath != ""
    requires Walk(path, es, arg, opts, dest).Ok?
    ensures forall k :: k in Walk(path, es, arg, opts, dest).value.dest && k !in dest ==>
              exists x :: x in es && (k == KeyOf(x) || k in DirsToCreate(x))
    ensures forall k :: k in Walk(path, es, arg, opts, dest).value.dest && k !in dest && (forall x :: x in es ==> k != KeyOf(x)) ==>
              Walk(path, es, arg, opts, dest).value.dest[k] == Directory
    decreases |es|
  {
    if es != [] {
      var p := PlaceEntry(es[0], opts.overwrite, dest);
      var tail := Following(es, p.collides);
      ExtractionAddsOnlyEntryPaths(path, tail, arg, opts, p.dest);
      ExtractionFrame(path, tail, arg, opts, p.dest);
      var last := Walk(path, es, arg, opts, dest).value.dest;
      assert last == Walk(path, tail, arg, opts, p.dest).value.dest;
      forall k | k in last && k !in dest
        ensures exists x :: x in es && (k == KeyOf(x) || k in DirsToCreate(x))
      {
        if k in p.dest {
          assert k == KeyOf(es[0]) || k in DirsToCreate(es[0]);
        } else {
          var x :| x in tail && (k == KeyOf(x) || k in DirsToCreate(x));
          assert x in es;
        }
      }
    }
  }

  /** One turn of the extraction loop on an entry that opens, has a name
      and passes the CRC check (or collides). */
  lemma ExtractionTurn(path: string, es: seq<Entry>, arg: Option<string>, opts: Options, dest: Dest)
    requires es != [] && opts.toPath != ""
    requires Opens(es[0].lock, arg) && CString(es[0].rawName) != []
    requires PlaceEntry(es[0], opts.overwrite, dest).collides || !opts.checkCrc || es[0].crcOk
    ensures var p := PlaceEntry(es[0], opts.overwrite, dest);
            var rest := Walk(path, Following(es, p.collides), arg, opts, p.dest);
            Walk(path, es, arg, opts, dest)
            == if rest.Ok? then Ok(Visit([NameOf(es[0])] + rest.value.names, rest.value.dest)) else rest
  {
  }

  /** Keys of the entries are pairwise distinct, and no file entry's key is a
      directory above another entry's key. */
  predicate Clean(es: seq<Entry>) {
    && (forall i, j :: 0 <= i < j < |es| ==> KeyOf(es[i]) != KeyOf(es[j]))
    && (forall i, j :: 0 <= i < |es| && 0 <= j < |es| && !IsDirEntry(es[j]) ==> KeyOf(es[j]) !in Ancestors(KeyOf(es[i])))
  }

  /** The destination does not stand in the way of the entries still to be
      extracted: no file lies at or above any of their keys, and nothing at
      all lies at the key of a file entry. */
  predicate Sound(d: Dest, es: seq<Entry>) {
    && (forall k :: k in d && d[k].Blob? ==>
          forall i :: 0 <= i < |es| ==> k != KeyOf(es[i]) && k !in Ancestors(KeyOf(es[i])))
    && (forall i :: 0 <= i < |es| && !IsDirEntry(es[i]) ==> KeyOf(es[i]) !in d)
  }

  /** The entry is materialized: a directory for a directory entry, a file
      holding the payload and stamped with the stored date otherwise. */
  predicate Placed(d: Dest, e: Entry) {
    KeyOf(e) in d && d[KeyOf(e)] == (if IsDirEntry(e) then Directory else Blob(e.payload, StampOf(e)))
  }

  /** The directories asked for are the ones above the key, plus the key
      itself exactly for a directory entry. */
  lemma DirsToCreateShape(e: Entry)
    ensures forall a :: a in DirsToCreate(e) ==> a in Ancestors(KeyOf(e)) || a == KeyOf(e)
    ensures forall a :: a in Ancestors(KeyOf(e)) ==> a in DirsToCreate(e)
    ensures KeyOf(e) in DirsToCreate(e) <==> IsDirEntry(e)
  {
    if IsDirEntry(e) {
      assert DirsToCreate(e)[|DirsToCreate(e)| - 1] == KeyOf(e);
    }
  }

  /** With no file among the directories asked for, every one of them exists
      afterwards, and a key that is neither present nor asked for stays
      absent. */
  lemma MakeDirsUnobstructed(dest: Dest, dirs: seq<string>, key: string)
    requires forall k :: k in dest && dest[k].Blob? ==> k !in dirs
    ensures forall a :: a in dirs ==> a in MakeDirs(dest, dirs) && MakeDirs(dest, dirs)[a] == Directory
    ensures key !in dest && key !in dirs ==> key !in MakeDirs(dest, dirs)
  {
  }

  /** On a destination where nothing stands in the way of `e`, extracting it
      does not collide and materializes it. */
  lemma PlaceUnobstructed(e: Entry, overwrite: bool, dest: Dest)
    requires forall k :: k in dest && dest[k].Blob? ==> k != KeyOf(e) && k !in Ancestors(KeyOf(e))
    requires !IsDirEntry(e) ==> KeyOf(e) !in dest
    ensures !PlaceEntry(e, overwrite, dest).collides
    ensures Placed(PlaceEntry(e, overwrite, dest).dest, e)
  {
    var key := KeyOf(e);
    var dirs := DirsToCreate(e);
    DirsToCreateShape(e);
    MakeDirsUnobstructed(dest, dirs, key);
    var made := MakeDirs(dest, dirs);
    if !IsDirEntry(e) {
      assert key !in made;
      assert Writable(made, key);
    }
  }

  /** A clean archive stays clean without its first entry. */
  lemma CleanTail(es: seq<Entry>)
    requires es != [] && Clean(es)
    ensures Clean(es[1..])
  {
    forall i, j | 0 <= i < j < |es[1..]|
      ensures KeyOf(es[1..][i]) != KeyOf(es[1..][j])
    {
      assert es[1..][i] == es[i + 1] && es[1..][j] == es[j + 1];
    }
    forall i, j | 0 <= i < |es[1..]| && 0 <= j < |es[1..]| && !IsDirEntry(es[1..][j])
      ensures KeyOf(es[1..][j]) !in Ancestors(KeyOf(es[1..][i]))
    {
      assert es[1..][i] == es[i + 1] && es[1..][j] == es[j + 1];
    }
  }

  /** Extracting the first entry of a clean archive into a sound destination
      leaves it sound for the rest. */
  lemma PlaceKeepsSound(es: seq<Entry>, overwrite: bool, dest: Dest)
    requires es != [] && Clean(es) && Sound(dest, es)
    ensures Sound(PlaceEntry(es[0], overwrite, dest).dest, es[1..])
  {
    var e := es[0];
    var d' := PlaceEntry(e, overwrite, dest).dest;
    forall k | k in d' && d'[k].Blob?
      ensures forall i :: 0 <= i < |es[1..]| ==> k != KeyOf(es[1..][i]) && k !in Ancestors(KeyOf(es[1..][i]))
    {
      forall i | 0 <= i < |es[1..]|
        ensures k != KeyOf(es[1..][i]) && k !in Ancestors(KeyOf(es[1..][i]))
      {
        assert es[1..][i] == es[i + 1];
        if k != KeyOf(e) {
          assert k in dest;
        } else {
          assert !IsDirEntry(e);
        }
      }
    }
    forall i | 0 <= i < |es[1..]| && !IsDirEntry(es[1..][i])
      ensures KeyOf(es[1..][i]) !in d'
    {
      assert es[1..][i] == es[i + 1];
      var k := KeyOf(es[i + 1]);
      assert k !in dest;
      assert k != KeyOf(e);
      assert k !in Ancestors(KeyOf(e));
      assert k !in DirsToCreate(e);
    }
  }

  /** Extracting a clean archive with no faulty entry into a sound
      destination succeeds whatever `overwrite` says, reports every name in
      storage order, and leaves each entry materialized at its key with its
      payload and stored date. */
  lemma {:induction false} CleanExtractionPlacesEveryEntry(path: string, es: seq<Entry>, arg: Option<string>, opts: Options, dest: Dest)
    requires opts.toPath != ""
    requires Clean(es) && Sound(dest, es)
    requires forall i :: 0 <= i < |es| ==> Fault(path, es[i], arg, opts.checkCrc).None?
    ensures Walk(path, es, arg, opts, dest).Ok?
    ensures Walk(path, es, arg, opts, dest).value.names == ListingNames(es)
    ensures forall i :: 0 <= i < |es| ==> Placed(Walk(path, es, arg, opts, dest).value.dest, es[i])
    decreases |es|
  {
    if es != [] {
      var e := es[0];
      var p := PlaceEntry(e, opts.overwrite, dest);
      PlaceUnobstructed(e, opts.overwrite, dest);
      PlaceKeepsSound(es, opts.overwrite, dest);
      CleanTail(es);
      assert forall i :: 0 <= i < |es[1..]| ==> es[1..][i] == es[i + 1];
      CleanExtractionPlacesEveryEntry(path, es[1..], arg, opts, p.dest);
      ExtractionTurn(path, es, arg, opts, dest);
      PlacedAfterRest(path, es, arg, opts, p.dest);
    }
  }

  /** Step of `CleanExtractionPlacesEveryEntry`: the first entry stays in
      place while the rest are extracted. */
  lemma PlacedAfterRest(path: string, es: seq<Entry>, arg: Option<string>, opts: Options, d: Dest)
    requires es != [] && opts.toPath != "" && Clean(es)
    requires Placed(d, es[0])
    requires Walk(path, es[1..], arg, opts, d).Ok?
    requires forall i :: 0 <= i < |es| - 1 ==> Placed(Walk(path, es[1..], arg, opts, d).value.dest, es[1..][i])
    ensures forall i :: 0 <= i < |es| ==> Placed(Walk(path, es[1..], arg, opts, d).value.dest, es[i])
  {
    ExtractionFrame(path, es[1..], arg, opts, d);
    assert forall x :: x in es[1..] ==> KeyOf(es[0]) != KeyOf(x);
    forall i | 0 < i < |es|
      ensures Placed(Walk(path, es[1..], arg, opts, d).value.dest, es[i])
    {
      assert es[i] == es[1..][i - 1];
    }
  }

  /** A freshly created destination is sound for any archive none of whose
      file entries lands on the destination itself. */
  lemma FreshDestinationIsSound(es: seq<Entry>)
    requires forall i :: 0 <= i < |es| && !IsDirEntry(es[i]) ==> KeyOf(es[i]) != ""
    ensures Sound(EmptyDest, es)
  {
  }

  /** After a collision the following entry is never looked at: whatever it
      is, the loop's outcome is the same. */
  lemma CollisionSkipsFollower(path: string, e: Entry, x: Entry, y: Entry, rest: seq<Entry>,
                               arg: Option<string>, opts: Options, dest: Dest)
    requires opts.toPath != "" && !opts.overwrite
    requires Opens(e.lock, arg) && CString(e.rawName) != [] && !IsDirEntry(e)
    requires KeyOf(e) in dest
    ensures Walk(path, [e, x] + rest, arg, opts, dest) == Walk(path, [e, y] + rest, arg, opts, dest)
  {
    var ex, ey := [e, x] + rest, [e, y] + rest;
    assert ex[0] == e && ey[0] == e;
    assert PlaceEntry(e, opts.overwrite, dest).collides;
    assert Following(ex, true) == rest == Following(ey, true);
  }

  /** A top-level file written twice with `overwrite` off: the first copy
      lands in a fresh destination, the second collides with it and empties
      it. */
  lemma TopLevelCopies(key: string, data: seq<byte>, stamp: Option<DateParts>)
    requires key != "" && Ancestors(key) == []
    ensures Place(key, false, [], data, stamp, false, EmptyDest) == Placement(false, EmptyDest[key := Blob(data, stamp)])
    ensures Place(key, false, [], data, stamp, false, EmptyDest[key := Blob(data, stamp)])
            == Placement(true, EmptyDest[key := Blob([], stamp)])
  {
    assert MakeDirs(EmptyDest, []) == EmptyDest;
    assert Writable(EmptyDest, key);
    var once := EmptyDest[key := Blob(data, stamp)];
    assert MakeDirs(once, []) == once;
    assert Writable(once, key);
    assert once[key := Blob([], stamp)] == EmptyDest[key := Blob([], stamp)];
  }

  /** An archive that stores the same top-level file twice, followed by any
      entry: with `overwrite` off the second copy empties the file and the
      following entry is neither reported nor extracted. */
  lemma DuplicateHidesFollower(path: string, e: Entry, f: Entry, arg: Option<string>, toPath: string)
    requires toPath != ""
    requires Fault(path, e, arg, true).None?
    requires !IsDirEntry(e) && KeyOf(e) != "" && Ancestors(KeyOf(e)) == []
    ensures Walk(path, [e, e, f], arg, Options(toPath, false, true), EmptyDest)
            == Ok(Visit([NameOf(e), NameOf(e)], EmptyDest[KeyOf(e) := Blob([], StampOf(e))]))
  {
    var opts := Options(toPath, false, true);
    var once := EmptyDest[KeyOf(e) := Blob(e.payload, StampOf(e))];
    var emptied := EmptyDest[KeyOf(e) := Blob([], StampOf(e))];
    DuplicatePlacements(e);
    SecondTurnStops(path, e, f, arg, opts, once, emptied);
    FirstTurn(path, e, f, arg, opts, once, [NameOf(e)], emptied);
    assert [NameOf(e)] + [NameOf(e)] == [NameOf(e), NameOf(e)];
  }

  /** Step of `DuplicateHidesFollower`: the first copy is written, the
      second collides with it and empties it. */
  lemma DuplicatePlacements(e: Entry)
    requires !IsDirEntry(e) && KeyOf(e) != "" && Ancestors(KeyOf(e)) == []
    ensures PlaceEntry(e, false, EmptyDest) == Placement(false, EmptyDest[KeyOf(e) := Blob(e.payload, StampOf(e))])
    ensures PlaceEntry(e, false, EmptyDest[KeyOf(e) := Blob(e.payload, StampOf(e))])
            == Placement(true, EmptyDest[KeyOf(e) := Blob([], StampOf(e))])
  {
    assert DirsToCreate(e) == [];
    TopLevelCopies(KeyOf(e), e.payload, StampOf(e));
  }

  /** Step of `DuplicateHidesFollower`: the second copy collides and the
      cursor runs past the entry after it. */
  lemma SecondTurnStops(path: string, e: Entry, f: Entry, arg: Option<string>, opts: Options, once: Dest, emptied: Dest)
    requires opts.toPath != ""
    requires Opens(e.lock, arg) && CString(e.rawName) != []
    requires PlaceEntry(e, opts.overwrite, once) == Placement(true, emptied)
    ensures Walk(path, [e, f], arg, opts, once) == Ok(Visit([NameOf(e)], emptied))
  {
    var es1 := [e, f];
    assert es1[0] == e;
    assert Following(es1, true) == [];
    ExtractionTurn(path, es1, arg, opts, once);
    assert [NameOf(e)] + [] == [NameOf(e)];
  }

  /** Step of `DuplicateHidesFollower`: the first copy is written and the
      loop goes on with the rest. */
  lemma FirstTurn(path: string, e: Entry, f: Entry, arg: Option<string>, opts: Options, once: Dest, names: seq<string>, last: Dest)
    requires opts.toPath != "" && opts.checkCrc
    requires Fault(path, e, arg, true).None?
    requires PlaceEntry(e, opts.overwrite, EmptyDest) == Placement(false, once)
    requires Walk(path, [e, f], arg, opts, once) == Ok(Visit(names, last))
    ensures Walk(path, [e, e, f], arg, opts, EmptyDest) == Ok(Visit([NameOf(e)] + names, last))
  {
    var es0 := [e, e, f];
    assert es0[0] == e;
    assert Following(es0, false) == [e, f];
    ExtractionTurn(path, es0, arg, opts, EmptyDest);
  }

  /** The same archive with `overwrite` on: all three names are reported. */
  lemma DuplicateWithOverwriteReportsAll(path: string, e: Entry, f: Entry, arg: Option<string>, toPath: string)
    requires toPath != ""
    requires Fault(path, e, arg, true).None? && Fault(path, f, arg, true).None?
    ensures Walk(path, [e, e, f], arg, Options(toPath, true, true), EmptyDest).Ok?
    ensures Walk(path, [e, e, f], arg, Options(toPath, true, true), EmptyDest).value.names
            == [NameOf(e), NameOf(e), NameOf(f)]
  {
    var es := [e, e, f];
    assert forall i :: 0 <= i < |es| ==> Fault(path, es[i], arg, true).None?;
    ListingReportsAllNames(path, es, arg, Options("", true, true), EmptyDest);
    assert ListingNames(es) == [NameOf(e), NameOf(e), NameOf(f)];
    OverwritingExtractionListsLikeListing(path, es, arg, toPath, true, EmptyDest, EmptyDest);
  }
}

=== FILE: entry_names.dfy ===
/** How a stored entry name becomes the name the helper reports: the C
    string minizip hands back, the directory flag taken from its last raw
    character, and the translation of `\` separators to `/`. */
module EntryNames {
  import opened Text

  /** The directory flag: the raw stored name (all `size_filename` bytes,
      before any truncation or translation) ends in `/` or `\`. */
  predicate IsDirectoryName(raw: string) {
    |raw| > 0 && (raw[|raw| - 1] == '/' || raw[|raw| - 1] == '\\')
  }

  /** `replacingOccurrences(of: "\\", with: "/")`. */
  function ToUnixSeparators(name: string): (r: string)
    ensures |r| == |name|
    ensures forall i :: 0 <= i < |name| ==> r[i] == (if name[i] == '\\' then '/' else name[i])
  {
    if name == [] then []
    else [if name[0] == '\\' then '/' else name[0]] + ToUnixSeparators(name[1..])
  }

  /** The guard of the translation: some `/` or `\` occurs. */
  predicate HasSeparator(name: string) {
    exists i :: 0 <= i < |name| && (name[i] == '/' || name[i] == '\\')
  }

  /** The name as the entry loop reports it: the translation is applied only
      when the name holds some separator. */
  function NormalizeEntryName(name: string): string {
    if HasSeparator(name) then ToUnixSeparators(name) else name
  }

  /** The guard is only a shortcut: normalizing is translating every `\`. */
  lemma NormalizeIsTranslation(name: string)
    ensures NormalizeEntryName(name) == ToUnixSeparators(name)
  {
    if !HasSeparator(name) {
      assert forall i :: 0 <= i < |name| ==> name[i] != '\\';
      assert ToUnixSeparators(name) == name;
    }
  }

  /** A normalized name keeps its length, has no `\` left, and differs from
      the stored name only where the stored name had a `\`. */
  lemma NormalizedNameShape(name: string)
    ensures |NormalizeEntryName(name)| == |name|
    ensures forall i :: 0 <= i < |name| ==> NormalizeEntryName(name)[i] != '\\'
    ensures forall i :: 0 <= i < |name| && name[i] != '\\' ==> NormalizeEntryName(name)[i] == name[i]
    ensures forall i :: 0 <= i < |name| && name[i] == '\\' ==> NormalizeEntryName(name)[i] == '/'
  {
    NormalizeIsTranslation(name);
  }

  /** Normalizing twice is normalizing once. */
  lemma NormalizeIsIdempotent(name: string)
    ensures NormalizeEntryName(NormalizeEntryName(name)) == NormalizeEntryName(name)
  {
    NormalizeIsTranslation(name);
    NormalizeIsTranslation(ToUnixSeparators(name));
    assert ToUnixSeparators(ToUnixSeparators(name)) == ToUnixSeparators(name);
  }

  /** A name without `\` is reported unchanged. */
  lemma NormalizeKeepsUnixNames(name: string)
    requires forall i :: 0 <= i < |name| ==> name[i] != '\\'
    ensures NormalizeEntryName(name) == name
  {
    NormalizeIsTranslation(name);
    assert ToUnixSeparators(name) == name;
  }

  /** The name reported for an entry: its C string, normalized. */
  function ReportedName(raw: string): (r: string)
    ensures |r| <= |raw|
    ensures forall i :: 0 <= i < |r| ==> r[i] != '\0' && r[i] != '\\'
  {
    NormalizedNameShape(CString(raw));
    NormalizeEntryName(CString(raw))
  }

  /** For a stored name without NUL, the directory flag is true exactly when
      the reported name ends in `/`. */
  lemma DirectoryFlagMatchesReportedName(raw: string)
    requires forall i :: 0 <= i < |raw| ==> raw[i] != '\0'
    ensures IsDirectoryName(raw) <==> |ReportedName(raw)| > 0 && ReportedName(raw)[|raw| - 1] == '/'
  {
    CStringOfNulFree(raw);
    NormalizedNameShape(raw);
  }

  /** A NUL cuts the reported name short but not the directory flag: the raw
      name `a/` followed by NUL and `x` reports `a/` as a plain file. */
  lemma NulHidesDirectoryFlag()
    ensures ReportedName("a/\0x") == "a/"
    ensures !IsDirectoryName("a/\0x")
  {
    var raw := "a/\0x";
    assert CString(raw) == "a/";
    NormalizeKeepsUnixNames("a/");
  }
}

=== FILE: entry_read.dfy ===
/** Reading one entry of an opened archive, as `dataOf` does it: find the
    entry by a case-insensitive name comparison, open it, and drain its read
    stream in buffer-sized chunks. */
module EntryRead {
  import opened Errors
  import opened Text
  import opened Archive

  /** `strcasecmp` on the two C strings returns 0. */
  predicate NameMatches(e: Entry, name: string) {
    SameIgnoringCase(CString(e.rawName), CString(name))
  }

  /** `unzLocateFile` with a case-insensitive comparer: the position of the
      first entry, in storage order, whose name matches. */
  function Locate(es: seq<Entry>, name: string): (r: Option<nat>)
    ensures r.None? <==> forall j :: 0 <= j < |es| ==> !NameMatches(es[j], name)
    ensures r.Some? ==> r.value < |es| && NameMatches(es[r.value], name)
    ensures r.Some? ==> forall j :: 0 <= j < r.value ==> !NameMatches(es[j], name)
    decreases |es|
  {
    if es == [] then None
    else if NameMatches(es[0], name) then Some(0)
    else
      match Locate(es[1..], name)
      case None => None
      case Some(k) => Some(k + 1)
  }

  /** The located entry does not depend on the case in which the name is
      asked for. */
  lemma {:induction false} LocateIgnoresCase(es: seq<Entry>, a: string, b: string)
    requires SameIgnoringCase(CString(a), CString(b))
    ensures Locate(es, a) == Locate(es, b)
    decreases |es|
  {
    if es != [] {
      LocateIgnoresCase(es[1..], a, b);
    }
  }

  /** Number of `unzReadCurrentFile` calls that drain `n` payload bytes:
      one per full or partial buffer, and the final one that delivers
      nothing. */
  function ReadCalls(n: nat): nat {
    (n + UnzipBufferSize - 1) / UnzipBufferSize + 1
  }

  /** Lines 190-199: append every positive read to the result and stop at
      the first read that delivers nothing, whether it reports the end of
      the entry or an error.  The bytes returned are the whole payload, and
      a failing last read goes unnoticed. */
  method DrainEntry(e: Entry) returns (data: seq<byte>, calls: nat)
    ensures data == e.payload
    ensures calls == ReadCalls(|e.payload|)
  {
    data := [];
    calls := 0;
    var pos := 0;
    while true
      invariant pos <= |e.payload| && data == e.payload[..pos]
      invariant pos == |e.payload| || pos % UnzipBufferSize == 0
      invariant calls == (pos + UnzipBufferSize - 1) / UnzipBufferSize
      decreases |e.payload| - pos
    {
      var r := ReadChunk(e, pos);
      calls := calls + 1;
      if r.Chunk? {
        assert e.payload[..pos + |r.bytes|] == e.payload[..pos] + r.bytes;
        data := data + r.bytes;
        pos := pos + |r.bytes|;
      } else {
        break;
      }
    }
  }

  /** What `dataOf` does once the archive is open and positioned on its
      first entry (lines 171-202): the requested name must be ASCII, must
      match some entry, and that entry must open with the password given. */
  function ReadNamed(es: seq<Entry>, entryPath: string, password: Option<string>): (r: Result<seq<byte>>)
    ensures r == Err(EncodingError(entryPath)) <==> !IsAscii(entryPath)
    ensures r == Err(FileNotFound(entryPath)) <==> IsAscii(entryPath) && Locate(es, entryPath).None?
    ensures r == Err(UnzipFail(entryPath)) <==>
              IsAscii(entryPath) && Locate(es, entryPath).Some?
              && !Opens(es[Locate(es, entryPath).value].lock, PasswordArgument(password))
    ensures r.Ok? ==> exists i :: 0 <= i < |es| && NameMatches(es[i], entryPath) && r.value == es[i].payload
                                  && Opens(es[i].lock, PasswordArgument(password))
    ensures IsAscii(entryPath) && Locate(es, entryPath).Some?
            && Opens(es[Locate(es, entryPath).value].lock, PasswordArgument(password)) ==>
              r == Ok(es[Locate(es, entryPath).value].payload)
  {
    if !IsAscii(entryPath) then Err(EncodingError(entryPath))
    else match Locate(es, entryPath)
      case None => Err(FileNotFound(entryPath))
      case Some(i) =>
        if !Opens(es[i].lock, PasswordArgument(password)) then Err(UnzipFail(entryPath))
        else Ok(es[i].payload)
  }

  /** The same steps with the read loop run: the bytes returned are the
      payload of the first matching entry. */
  method ReadNamedEntry(es: seq<Entry>, entryPath: string, password: Option<string>) returns (r: Result<seq<byte>>)
    ensures r == ReadNamed(es, entryPath, password)
    ensures r.Ok? ==> r.value == es[Locate(es, entryPath).value].payload
  {
    if !IsAscii(entryPath) {
      return Err(EncodingError(entryPath));
    }
    var found := Locate(es, entryPath);
    if found.None? {
      return Err(FileNotFound(entryPath));
    }
    var e := es[found.value];
    if !Opens(e.lock, PasswordArgument(password)) {
      return Err(UnzipFail(entryPath));
    }
    var data, _ := DrainEntry(e);
    return Ok(data);
  }
}

=== FILE: errors.dfy ===
/** The failures EPubHelper can raise, and the result type every operation
    of the model returns. */
module Errors {

  /** A URL as the helper sees it: whether it is a `file:` URL, and its path. */
  datatype Url = Url(isFileUrl: bool, path: string)

  /** `UnzipError` of the Swift helper, one constructor per case, each
      carrying the offending URL or path.  `SystemError` stands for an error
      thrown by FileManager itself (removing or creating the destination)
      that the helper lets propagate unchanged. */
  datatype UnzipError =
    | NotFile(url: Url)
    | NotDirectory(path: string)
    | AlreadyExistsDirectory(path: string)
    | FileNotFound(path: string)
    | FileNotSupport(path: string)
    | OpenFail(path: string)
    | UnzipFail(path: string)
    | CrcError(path: string)
    | EncodingError(path: string)
    | InvalidPackaging(path: string)
    | SystemError(path: string)

  datatype Option<+T> = None | Some(value: T)

  /** A thrown error or a returned value; usable with `:-`. */
  datatype Result<+T> = Ok(value: T) | Err(error: UnzipError) {

    predicate IsFailure() {
      Err?
    }

    function PropagateFailure<U>(): Result<U>
      requires Err?
    {
      Err(error)
    }

    function Extract(): T
      requires Ok?
    {
      value
    }
  }
}

=== FILE: helper.dfy ===
/** The public operations of `EPubHelper`: validating the packaging of an
    EPUB file, listing its entries, reading one entry, and extracting it into
    a destination directory.  Each runs against a volume of named items; the
    destination's status on disk and the success of the one FileManager call
    that prepares it are parameters. */
module EPubHelper {
  import opened Errors
  import opened Text
  import opened Paths
  import opened Archive
  import opened Packaging
  import opened Destination
  import opened EntryLoop
  import opened EntryRead

  /** `fileExists(atPath:)`: true for folders as well as files. */
  predicate Exists(vol: Volume, path: string) {
    path in vol
  }

  /** `Data(contentsOf:)` of the item at `path`, if it is a readable file. */
  function Contents(vol: Volume, path: string): Option<seq<byte>> {
    if path in vol && vol[path].File? then vol[path].contents else None
  }

  /** `unzOpen64` followed by `unzGoToFirstFile`: the entries of the item at
      `path`, when it is a ZIP container with at least one entry. */
  function Entries(vol: Volume, path: string): Option<seq<Entry>> {
    if path in vol && vol[path].File? && vol[path].archive.Some? && vol[path].archive.value != []
    then vol[path].archive
    else None
  }

  /** `validateZipAt(_: URL)`, lines 94-126. */
  function ValidateZipAt(url: Url, vol: Volume): (r: Result<()>)
    ensures r == Err(NotFile(url)) <==> !url.isFileUrl
    ensures r == Err(FileNotFound(url.path)) <==> url.isFileUrl && !Exists(vol, url.path)
    ensures r == Err(FileNotSupport(url.path)) <==> url.isFileUrl && Exists(vol, url.path) && !IsSupportedPath(url.path)
    ensures r == Err(OpenFail(url.path)) <==>
              url.isFileUrl && Exists(vol, url.path) && IsSupportedPath(url.path)
              && (Contents(vol, url.path).None? || |Contents(vol, url.path).value| < ZipHeaderSize)
    ensures r.Ok? <==>
              url.isFileUrl && Exists(vol, url.path) && IsSupportedPath(url.path)
              && Contents(vol, url.path).Some? && |Contents(vol, url.path).value| >= ZipHeaderSize
              && MimetypeFirst(Contents(vol, url.path).value)
    ensures r == Err(InvalidPackaging(url.path)) <==>
              url.isFileUrl && Exists(vol, url.path) && IsSupportedPath(url.path)
              && Contents(vol, url.path).Some? && |Contents(vol, url.path).value| >= ZipHeaderSize
              && !MimetypeFirst(Contents(vol, url.path).value)
    ensures r.Err? ==> r.error.NotFile? || r.error.FileNotFound? || r.error.FileNotSupport?
                       || r.error.OpenFail? || r.error.InvalidPackaging?
  {
    if !url.isFileUrl then Err(NotFile(url))
    else
      var path := url.path;
      if !Exists(vol, path) then Err(FileNotFound(path))
      else if !IsSupportedPath(path) then Err(FileNotSupport(path))
      else match Contents(vol, path)
      case None => Err(OpenFail(path))
      case Some(bs) =>
        if |bs| < ZipHeaderSize then Err(OpenFail(path))
        else
          HeaderAcceptedIffMimetypeFirst(bs);
          if !HeaderAccepted(bs) then Err(InvalidPackaging(path)) else Ok(())
  }

  /** `validateZipAt(_: String)`, lines 90-92: the path is wrapped in a file
      URL. */
  function ValidateZipAtPath(path: string, vol: Volume): (r: Result<()>)
    ensures r.Err? ==> !r.error.NotFile?
  {
    ValidateZipAt(Url(true, path), vol)
  }

  /** Only the first 58 bytes of a file decide whether it passes, whatever
      else the file is (an archive minizip opens or not). */
  lemma ValidationReadsOnlyHeader(path: string, vol: Volume, bs: seq<byte>, tail: seq<byte>)
    requires path in vol && vol[path].File? && vol[path].contents == Some(bs) && |bs| >= ZipHeaderSize
    ensures ValidateZipAtPath(path, vol[path := vol[path].(contents := Some(bs + tail))]) == ValidateZipAtPath(path, vol)
  {
    var cs := bs + tail;
    assert cs[0..2] == bs[0..2];
    assert cs[30..38] == bs[30..38];
    assert cs[38..ZipHeaderSize] == bs[38..ZipHeaderSize];
  }

  /** A file holding the conforming header is accepted whenever its
      extension is `epub` or `zip` in any case. */
  lemma ConformingFileIsValid(base: string, ext: string, vol: Volume, tail: seq<byte>)
    requires base != [] && base[|base| - 1] != '/'
    requires Lower(ext) == "epub" || Lower(ext) == "zip"
    requires base + "." + ext in vol && vol[base + "." + ext].File?
    requires vol[base + "." + ext].contents == Some(ConformingHeader() + tail)
    ensures ValidateZipAtPath(base + "." + ext, vol) == Ok(())
  {
    SupportedIffKnownExtension(base, ext);
    AcceptedWithHeader(base + "." + ext, vol, ConformingHeader(), tail);
  }

  /** Step of `ConformingFileIsValid`, for any accepted header. */
  lemma AcceptedWithHeader(path: string, vol: Volume, h: seq<byte>, tail: seq<byte>)
    requires |h| >= ZipHeaderSize && MimetypeFirst(h)
    requires IsSupportedPath(path) && path in vol && vol[path].File? && vol[path].contents == Some(h + tail)
    ensures ValidateZipAtPath(path, vol) == Ok(())
  {
    MimetypeFirstIgnoresTail(h, tail);
    AcceptedWhenMimetypeFirst(path, vol);
  }

  /** Step of `ConformingFileIsValid`: a supported file whose header holds
      `mimetype` first passes. */
  lemma AcceptedWhenMimetypeFirst(path: string, vol: Volume)
    requires Exists(vol, path) && IsSupportedPath(path)
    requires Contents(vol, path).Some? && |Contents(vol, path).value| >= ZipHeaderSize
    requires MimetypeFirst(Contents(vol, path).value)
    ensures ValidateZipAtPath(path, vol) == Ok(())
  {
  }

  /** The private `unzipAt(_:password:options:)`, lines 244-354, from
      opening the archive on; listing runs from an untouched destination,
      extraction from a freshly prepared, empty one. */
  function UnzipWith(path: string, password: Option<string>, opts: Options, vol: Volume): (r: Result<Visit>)
    ensures Entries(vol, path).None? <==> r == Err(OpenFail(path))
    ensures Entries(vol, path).Some? ==> r == Walk(path, Entries(vol, path).value, PasswordArgument(password), opts, EmptyDest)
    ensures r.Err? ==> r.error in {OpenFail(path), UnzipFail(path), CrcError(path)}
  {
    match Entries(vol, path)
    case None => Err(OpenFail(path))
    case Some(es) =>
      Walk(path, es, PasswordArgument(password), opts, EmptyDest)
  }

  /** `entriesOfZipAt(_: String, password:)`, lines 136-150: the checks on
      the path, then the loop in listing mode with CRC checking off. */
  function EntriesOfZipAt(path: string, password: Option<string>, vol: Volume): (r: Result<seq<string>>)
    ensures r.Ok? <==>
              Exists(vol, path) && IsSupportedPath(path) && Entries(vol, path).Some?
              && forall i :: 0 <= i < |Entries(vol, path).value| ==>
                   Fault(path, Entries(vol, path).value[i], PasswordArgument(password), false).None?
    ensures r.Ok? ==> r.value == ListingNames(Entries(vol, path).value)
    ensures r.Err? ==> r.error in {FileNotFound(path), FileNotSupport(path), OpenFail(path), UnzipFail(path)}
    ensures !Exists(vol, path) ==> r == Err(FileNotFound(path))
    ensures Exists(vol, path) && !IsSupportedPath(path) ==> r == Err(FileNotSupport(path))
    ensures r == Err(OpenFail(path)) <==> Exists(vol, path) && IsSupportedPath(path) && Entries(vol, path).None?
    ensures r == Err(UnzipFail(path)) <==>
              Exists(vol, path) && IsSupportedPath(path) && Entries(vol, path).Some?
              && exists i :: 0 <= i < |Entries(vol, path).value| &&
                   Fault(path, Entries(vol, path).value[i], PasswordArgument(password), false).Some?
  {
    if !Exists(vol, path) then Err(FileNotFound(path))
    else if !IsSupportedPath(path) then Err(FileNotSupport(path))
    else match Entries(vol, path)
      case None => Err(OpenFail(path))
      case Some(es) =>
        var opts := Options("", true, false);
        var arg := PasswordArgument(password);
        ListingReportsAllNames(path, es, arg, opts, EmptyDest);
        ListingWithoutCrcNeverReportsCrc(path, es, arg, EmptyDest);
        match Walk(path, es, arg, opts, EmptyDest)
        case Err(e) => Err(e)
        case Ok(v) => Ok(v.names)
  }

  /** `entriesOfZipAt(_: URL, password:)`, lines 129-134. */
  function EntriesOfZipAtUrl(url: Url, password: Option<string>, vol: Volume): (r: Result<seq<string>>)
    ensures !url.isFileUrl <==> r == Err(NotFile(url))
    ensures url.isFileUrl ==> r == EntriesOfZipAt(url.path, password, vol)
  {
    if !url.isFileUrl then Err(NotFile(url)) else EntriesOfZipAt(url.path, password, vol)
  }

  /** `dataOf(_:atZipPath:password:)`, lines 152-202: the checks on the
      archive path, opening the archive, then reading the named entry. */
  function DataOf(entryPath: string, zipPath: string, password: Option<string>, vol: Volume): (r: Result<seq<byte>>)
    ensures !Exists(vol, zipPath) ==> r == Err(FileNotFound(zipPath))
    ensures Exists(vol, zipPath) && !IsSupportedPath(zipPath) ==> r == Err(FileNotSupport(zipPath))
    ensures r == Err(OpenFail(zipPath)) <==> Exists(vol, zipPath) && IsSupportedPath(zipPath) && Entries(vol, zipPath).None?
    ensures Exists(vol, zipPath) && IsSupportedPath(zipPath) && Entries(vol, zipPath).Some? ==>
              r == ReadNamed(Entries(vol, zipPath).value, entryPath, password)
    ensures r.Ok? ==> Entries(vol, zipPath).Some?
    ensures r.Ok? ==> exists i :: 0 <= i < |Entries(vol, zipPath).value|
                                  && NameMatches(Entries(vol, zipPath).value[i], entryPath)
                                  && r.value == Entries(vol, zipPath).value[i].payload
    ensures Exists(vol, zipPath) && IsSupportedPath(zipPath) && Entries(vol, zipPath).Some? && IsAscii(entryPath)
            && Locate(Entries(vol, zipPath).value, entryPath).Some?
            && Opens(Entries(vol, zipPath).value[Locate(Entries(vol, zipPath).value, entryPath).value].lock, PasswordArgument(password)) ==>
              r == Ok(Entries(vol, zipPath).value[Locate(Entries(vol, zipPath).value, entryPath).value].payload)
  {
    if !Exists(vol, zipPath) then Err(FileNotFound(zipPath))
    else if !IsSupportedPath(zipPath) then Err(FileNotSupport(zipPath))
    else match Entries(vol, zipPath)
    case None => Err(OpenFail(zipPath))
    case Some(es) => ReadNamed(es, entryPath, password)
  }

  /** The same operation with the read loop run. */
  method ReadDataOf(entryPath: string, zipPath: string, password: Option<string>, vol: Volume) returns (r: Result<seq<byte>>)
    ensures r == DataOf(entryPath, zipPath, password, vol)
  {
    if !Exists(vol, zipPath) {
      return Err(FileNotFound(zipPath));
    }
    if !IsSupportedPath(zipPath) {
      return Err(FileNotSupport(zipPath));
    }
    var es := Entries(vol, zipPath);
    if es.None? {
      return Err(OpenFail(zipPath));
    }
    r := ReadNamedEntry(es.value, entryPath, password);
  }

  /** A name that is not ASCII is refused only once the archive opened:
      a missing or unsupported archive is reported first. */
  lemma EncodingCheckedAfterOpening(entryPath: string, zipPath: string, password: Option<string>, vol: Volume)
    requires !IsAscii(entryPath)
    ensures DataOf(entryPath, zipPath, password, vol) == Err(EncodingError(entryPath)) <==>
              Exists(vol, zipPath) && IsSupportedPath(zipPath) && Entries(vol, zipPath).Some?
  {
  }

  /** `unzipAt(_: String, toPath:password:overwrite:)`, lines 214-242: the
      checks on the archive path, the preparation of the destination, then
      the loop in extraction mode with CRC checking on.  `status` is what
      `fileExists(atPath:isDirectory:)` reports for `toPath`, and
      `fileManagerOk` whether the removal or creation it selects succeeds. */
  function UnzipAt(path: string, toPath: string, password: Option<string>, overwrite: bool,
                   vol: Volume, status: DestStatus, fileManagerOk: bool): (r: Result<Visit>)
    ensures !Exists(vol, path) <==> r == Err(FileNotFound(path))
    ensures r.Err? ==> !r.error.NotFile?
    ensures Exists(vol, path) && !IsSupportedPath(path) ==> r == Err(FileNotSupport(path))
    ensures Exists(vol, path) && IsSupportedPath(path) && PrepareDestination(toPath, status, overwrite, fileManagerOk).Err? ==>
              r == Err(PrepareDestination(toPath, status, overwrite, fileManagerOk).error)
    ensures Exists(vol, path) && IsSupportedPath(path) && PrepareDestination(toPath, status, overwrite, fileManagerOk).Ok? ==>
              r == UnzipWith(path, password, Options(toPath, overwrite, true), vol)
  {
    if !Exists(vol, path) then Err(FileNotFound(path))
    else if !IsSupportedPath(path) then Err(FileNotSupport(path))
    else match PrepareDestination(toPath, status, overwrite, fileManagerOk)
      case Err(e) => Err(e)
      case Ok(_) => UnzipWith(path, password, Options(toPath, overwrite, true), vol)
  }

  /** `unzipAt(_: URL, to:password:overwrite:)`, lines 205-212: both URLs
      must be file URLs, the archive's checked first. */
  function UnzipAtUrl(url: Url, to: Url, password: Option<string>, overwrite: bool,
                      vol: Volume, status: DestStatus, fileManagerOk: bool): (r: Result<Visit>)
    ensures !url.isFileUrl <==> r == Err(NotFile(url))
    ensures url.isFileUrl && !to.isFileUrl ==> r == Err(NotFile(to))
    ensures url.isFileUrl && to.isFileUrl ==> r == UnzipAt(url.path, to.path, password, overwrite, vol, status, fileManagerOk)
  {
    if !url.isFileUrl then Err(NotFile(url))
    else if !to.isFileUrl then Err(NotFile(to))
    else UnzipAt(url.path, to.path, password, overwrite, vol, status, fileManagerOk)
  }

  /** The destination is dealt with before the archive is opened: when
      preparing it fails, that error is reported whatever the archive
      holds, even when it cannot be opened at all. */
  lemma DestinationCheckedBeforeArchive(path: string, toPath: string, password: Option<string>, overwrite: bool,
                                        vol: Volume, status: DestStatus, fileManagerOk: bool, other: Item)
    requires Exists(vol, path) && IsSupportedPath(path)
    requires PrepareDestination(toPath, status, overwrite, fileManagerOk).Err?
    ensures UnzipAt(path, toPath, password, overwrite, vol, status, fileManagerOk)
            == UnzipAt(path, toPath, password, overwrite, vol[path := other], status, fileManagerOk)
    ensures UnzipAt(path, toPath, password, overwrite, vol, status, fileManagerOk).error != OpenFail(path)
  {
  }

  /** Extraction that succeeds with `overwrite` on reports the names the
      listing reports. */
  lemma ExtractionReportsListedNames(path: string, toPath: string, password: Option<string>,
                                     vol: Volume, status: DestStatus, fileManagerOk: bool)
    requires toPath != ""
    requires UnzipAt(path, toPath, password, true, vol, status, fileManagerOk).Ok?
    ensures EntriesOfZipAt(path, password, vol).Ok?
    ensures EntriesOfZipAt(path, password, vol).value == UnzipAt(path, toPath, password, true, vol, status, fileManagerOk).value.names
  {
    var es := Entries(vol, path).value;
    var arg := PasswordArgument(password);
    OverwritingExtractionListsLikeListing(path, es, arg, toPath, true, EmptyDest, EmptyDest);
    ListingReportsAllNames(path, es, arg, Options("", true, true), EmptyDest);
    ListingReportsAllNames(path, es, arg, Options("", true, false), EmptyDest);
    assert forall i :: 0 <= i < |es| ==> Fault(path, es[i], arg, true).None? ==> Fault(path, es[i], arg, false).None?;
  }
}

=== FILE: packaging.dfy ===
/** The EPUB packaging rule the validator enforces on the first bytes of a
    file: the archive starts with a ZIP local file header (section 4.3.7 of
    PKWARE's APPNOTE.TXT) for an entry named `mimetype`, with no extra field,
    whose stored bytes are `application/epub+zip` (section 3.3 of EPUB Open
    Container Format 3.0). */
module Packaging {
  import opened Errors
  import opened Text

  /** Bytes the validator needs: the 30-byte fixed header, the 8-byte name
      and the 20-byte payload. */
  const ZipHeaderSize: nat := 58
  const SignatureText: string := "PK"
  const MimetypeName: string := "mimetype"
  const MimetypeContent: string := "application/epub+zip"

  /** Little-endian unsigned 16-bit field at `off`. */
  function LeU16(bs: seq<byte>, off: nat): (v: nat)
    requires off + 2 <= |bs|
    ensures v < 0x1_0000
    ensures v == 0 <==> bs[off] == 0 && bs[off + 1] == 0
  {
    bs[off] as int + 256 * (bs[off + 1] as int)
  }

  /** The test of lines 113-124 as intended: three slices decoded as ASCII
      and compared with the expected strings, two length fields, read as the
      little-endian 16-bit values `LeU16` gives, compared with 8 and 0. */
  predicate HeaderAccepted(bs: seq<byte>)
    requires |bs| >= ZipHeaderSize
  {
    && AsciiDecode(bs[0..2]) == Some(SignatureText)
    && LeU16(bs, 26) == 8
    && LeU16(bs, 28) == 0
    && AsciiDecode(bs[30..38]) == Some(MimetypeName)
    && AsciiDecode(bs[38..ZipHeaderSize]) == Some(MimetypeContent)
  }

  /** The same rule stated on raw bytes: signature `PK`, name length 8,
      extra-field length 0, name `mimetype`, payload `application/epub+zip`. */
  predicate MimetypeFirst(bs: seq<byte>)
    requires |bs| >= ZipHeaderSize
  {
    && bs[0] == 0x50 && bs[1] == 0x4B
    && bs[26] == 8 && bs[27] == 0
    && bs[28] == 0 && bs[29] == 0
    && bs[30..38] == AsciiBytes(MimetypeName)
    && bs[38..58] == AsciiBytes(MimetypeContent)
  }

  /** The expected strings are ASCII, and `PK` is 0x50 0x4B. */
  lemma ConstantsAreAscii()
    ensures IsAscii(SignatureText) && IsAscii(MimetypeName) && IsAscii(MimetypeContent)
    ensures AsciiBytes(SignatureText) == [0x50, 0x4B]
  {
  }

  /** Decoding and comparing strings accepts exactly the headers that carry
      the five fields byte for byte. */
  lemma HeaderAcceptedIffMimetypeFirst(bs: seq<byte>)
    requires |bs| >= ZipHeaderSize
    ensures HeaderAccepted(bs) <==> MimetypeFirst(bs)
  {
    ConstantsAreAscii();
    DecodeIsEncodingInverse(bs[0..2], SignatureText);
    DecodeIsEncodingInverse(bs[30..38], MimetypeName);
    DecodeIsEncodingInverse(bs[38..ZipHeaderSize], MimetypeContent);
    assert bs[0..2] == [0x50, 0x4B] <==> bs[0] == 0x50 && bs[1] == 0x4B;
  }

  /** Offsets the rule inspects: the signature and everything from the name
      length on. */
  predicate IsCheckedOffset(i: int) {
    0 <= i < 2 || 26 <= i < ZipHeaderSize
  }

  /** Changing any inspected byte of an accepted header makes it rejected. */
  lemma EveryCheckedByteMatters(bs: seq<byte>, i: nat, v: byte)
    requires |bs| >= ZipHeaderSize && IsCheckedOffset(i) && bs[i] != v
    requires HeaderAccepted(bs)
    ensures !HeaderAccepted(bs[i := v])
  {
    var cs := bs[i := v];
    HeaderAcceptedIffMimetypeFirst(bs);
    HeaderAcceptedIffMimetypeFirst(cs);
    if 30 <= i < 38 {
      assert cs[30..38][i - 30] != bs[30..38][i - 30];
    } else if 38 <= i < 58 {
      assert cs[38..58][i - 38] != bs[38..58][i - 38];
    }
  }

  /** Bytes 2 to 25 (version, flags, compression method, time, date, CRC and
      sizes) and anything after byte 57 are never looked at: a compressed
      `mimetype` entry passes as long as the inspected bytes match. */
  lemma UncheckedBytesIgnored(bs: seq<byte>, i: nat, v: byte)
    requires |bs| >= ZipHeaderSize && i < |bs| && !IsCheckedOffset(i)
    ensures HeaderAccepted(bs[i := v]) <==> HeaderAccepted(bs)
  {
    var cs := bs[i := v];
    HeaderAcceptedIffMimetypeFirst(bs);
    HeaderAcceptedIffMimetypeFirst(cs);
    assert cs[30..38] == bs[30..38];
    assert cs[38..58] == bs[38..58];
  }

  /** Whatever follows the header does not matter. */
  lemma MimetypeFirstIgnoresTail(h: seq<byte>, tail: seq<byte>)
    requires |h| >= ZipHeaderSize && MimetypeFirst(h)
    ensures MimetypeFirst(h + tail)
  {
    assert (h + tail)[30..38] == h[30..38];
    assert (h + tail)[38..58] == h[38..58];
  }

  /** The first 58 bytes of a conforming EPUB: a stored (uncompressed)
      `mimetype` entry, version 1.0, no flags, CRC 0x2CAB616F, size 20. */
  function ConformingHeader(): (h: seq<byte>)
    ensures |h| == ZipHeaderSize
    ensures HeaderAccepted(h) && MimetypeFirst(h)
  {
    ConstantsAreAscii();
    var fixed: seq<byte> := [0x50, 0x4B, 0x03, 0x04, 10, 0, 0, 0, 0, 0, 0, 0, 0, 0,
                             0x6F, 0x61, 0xAB, 0x2C, 20, 0, 0, 0, 20, 0, 0, 0, 8, 0, 0, 0];
    var h := fixed + AsciiBytes(MimetypeName) + AsciiBytes(MimetypeContent);
    assert h[30..38] == AsciiBytes(MimetypeName);
    assert h[38..58] == AsciiBytes(MimetypeContent);
    assert MimetypeFirst(h);
    HeaderAcceptedIffMimetypeFirst(h);
    h
  }
}

=== FILE: paths.dfy ===
/** The little path arithmetic the helper needs: the extension used by the
    supported-archive check, and the keys under which extracted entries land
    in the destination directory. */
module Paths {
  import opened Text

  /** The recognised archive extensions, compared after lower-casing. */
  const SupportedZipExtensions: seq<string> := ["epub", "zip"]

  /** The path without its trailing `/` characters, as NSString path
      operations see it. */
  function StripTrailingSlashes(p: string): (r: string)
    ensures r <= p
    ensures r == [] || r[|r| - 1] != '/'
    ensures forall i :: |r| <= i < |p| ==> p[i] == '/'
  {
    if p != [] && p[|p| - 1] == '/' then StripTrailingSlashes(p[..|p| - 1]) else p
  }

  /** Where the longest suffix of `s` without `c` starts: just after the
      last `c`, or at 0 when there is none. */
  function StartAfterLast(s: string, c: char): (k: nat)
    ensures k <= |s|
    ensures forall i :: k <= i < |s| ==> s[i] != c
    ensures k > 0 ==> s[k - 1] == c
  {
    if s == [] || s[|s| - 1] == c then |s| else StartAfterLast(s[..|s| - 1], c)
  }

  /** The longest suffix of `s` that does not contain `c`. */
  function AfterLast(s: string, c: char): string {
    s[StartAfterLast(s, c)..]
  }

  /** Text after the last `.` of the last path component; empty when that
      component has no `.` past its first character, so the name of a
      hidden file such as `.epub` is no extension. */
  function PathExtension(path: string): (ext: string)
    ensures forall i :: 0 <= i < |ext| ==> ext[i] != '.' && ext[i] != '/'
  {
    var component := AfterLast(StripTrailingSlashes(path), '/');
    if |component| > 1 && '.' in component[1..] then AfterLast(component, '.') else ""
  }

  /** The extension check of every public operation. */
  predicate IsSupportedPath(path: string) {
    Lower(PathExtension(path)) in SupportedZipExtensions
  }

  /** Appending text free of `c` does not move the last `c`. */
  lemma {:induction false} AfterLastOfAppend(a: string, b: string, c: char)
    requires forall i :: 0 <= i < |b| ==> b[i] != c
    ensures StartAfterLast(a + b, c) == StartAfterLast(a, c)
    ensures AfterLast(a + b, c) == AfterLast(a, c) + b
  {
    if b == [] {
      assert a + b == a;
    } else {
      var b' := b[..|b| - 1];
      assert (a + b)[..|a + b| - 1] == a + b';
      AfterLastOfAppend(a, b', c);
    }
    var k := StartAfterLast(a, c);
    assert (a + b)[k..] == a[k..] + b;
  }

  /** The last component of `base.ext` is that of `base` followed by `.ext`. */
  lemma ComponentOfDottedName(base: string, ext: string)
    requires forall i :: 0 <= i < |ext| ==> ext[i] != '/'
    ensures AfterLast(base + "." + ext, '/') == AfterLast(base, '/') + "." + ext
  {
    assert base + "." + ext == base + ("." + ext);
    AfterLastOfAppend(base, "." + ext, '/');
  }

  /** Whatever precedes the last `.`, the text after it is the extension. */
  lemma TextAfterLastDot(head: string, ext: string)
    requires forall i :: 0 <= i < |ext| ==> ext[i] != '.'
    ensures AfterLast(head + "." + ext, '.') == ext
  {
    AfterLastOfAppend(head + ".", ext, '.');
    assert StartAfterLast(head + ".", '.') == |head + "."|;
  }

  /** The extension of `base.ext` is `ext`, whatever `base` holds, as long
      as `base` ends in some name (so the dot does not begin the last
      component) and `ext` itself has no `.` or `/`. */
  lemma ExtensionOfDottedName(base: string, ext: string)
    requires base != [] && base[|base| - 1] != '/'
    requires forall i :: 0 <= i < |ext| ==> ext[i] != '.' && ext[i] != '/'
    ensures PathExtension(base + "." + ext) == ext
  {
    var p := base + "." + ext;
    assert p[|p| - 1] != '/';
    assert StripTrailingSlashes(p) == p;
    ComponentOfDottedName(base, ext);
    var head := AfterLast(base, '/');
    assert |head| > 0;
    var component := head + "." + ext;
    assert component[1..][|head| - 1] == '.';
    TextAfterLastDot(head, ext);
  }

  /** A dot that begins the last component is no extension: `.epub` and
      `books/.epub` are hidden files with none, and are refused. */
  lemma HiddenNameHasNoExtension(dir: string, ext: string)
    requires dir == [] || dir[|dir| - 1] == '/'
    requires forall i :: 0 <= i < |ext| ==> ext[i] != '.' && ext[i] != '/'
    ensures PathExtension(dir + "." + ext) == ""
    ensures !IsSupportedPath(dir + "." + ext)
  {
    var p := dir + "." + ext;
    HiddenNameIsLastComponent(dir, ext);
    var component := "." + ext;
    assert component[1..] == ext;
    assert '.' !in ext;
    assert Lower("") == "";
  }

  /** Step of `HiddenNameHasNoExtension`: the last component is `.ext`. */
  lemma HiddenNameIsLastComponent(dir: string, ext: string)
    requires dir == [] || dir[|dir| - 1] == '/'
    requires forall i :: 0 <= i < |ext| ==> ext[i] != '/'
    ensures AfterLast(StripTrailingSlashes(dir + "." + ext), '/') == "." + ext
  {
    var tail := "." + ext;
    var p := dir + tail;
    assert dir + "." + ext == p;
    assert StripTrailingSlashes(p) == p by {
      assert p[|p| - 1] != '/';
    }
    assert StartAfterLast(dir, '/') == |dir|;
    AfterLastOfAppend(dir, tail, '/');
  }

  /** The extension check accepts `base.ext` exactly when `ext`, lower-cased,
      is `epub` or `zip`, so `.EPUB` passes and `.cbz` does not. */
  lemma SupportedIffKnownExtension(base: string, ext: string)
    requires base != [] && base[|base| - 1] != '/'
    requires forall i :: 0 <= i < |ext| ==> ext[i] != '.' && ext[i] != '/'
    ensures IsSupportedPath(base + "." + ext) <==> Lower(ext) == "epub" || Lower(ext) == "zip"
  {
    ExtensionOfDottedName(base, ext);
  }

  /** The comparison ignores case: `Book.EPUB` is accepted. */
  lemma UpperCaseExtensionSupported(base: string)
    requires base != [] && base[|base| - 1] != '/'
    ensures IsSupportedPath(base + "." + "EPUB")
  {
    SupportedIffKnownExtension(base, "EPUB");
    assert Lower("EPUB") == "epub";
  }

  /** A path with no `.` in its last component has no extension and is
      never supported. */
  lemma NoDotNotSupported(path: string)
    requires forall i :: 0 <= i < |path| ==> path[i] != '.'
    ensures PathExtension(path) == ""
    ensures !IsSupportedPath(path)
  {
    var component := AfterLast(StripTrailingSlashes(path), '/');
    assert forall i :: 0 <= i < |component| ==> component[i] in path;
    assert Lower("") == "";
  }

  /** A trailing `/` changes nothing: `Book.epub/` is an `epub` path. */
  lemma TrailingSlashKeepsExtension(path: string)
    ensures PathExtension(path + "/") == PathExtension(path)
    ensures IsSupportedPath(path + "/") <==> IsSupportedPath(path)
  {
    var p := path + "/";
    assert p[..|p| - 1] == path;
  }

  /** A `.` in a directory name is no extension: `books.epub/Sample` has
      none and is refused. */
  lemma DotInDirectoryIgnored(dir: string, name: string)
    requires name != []
    requires forall i :: 0 <= i < |name| ==> name[i] != '.' && name[i] != '/'
    ensures PathExtension(dir + "/" + name) == ""
    ensures !IsSupportedPath(dir + "/" + name)
  {
    var p := dir + "/" + name;
    assert p[|p| - 1] == name[|name| - 1];
    assert StripTrailingSlashes(p) == p;
    AfterLastOfAppend(dir + "/", name, '/');
    assert StartAfterLast(dir + "/", '/') == |dir + "/"|;
    assert AfterLast(p, '/') == name;
    assert Lower("") == "";
  }

  /** The key of an entry inside the destination: `appendingPathComponent`
      drops trailing `/`, so `OEBPS/` lands at `OEBPS`. */
  function Key(name: string): (k: string)
    ensures k <= name
    ensures k == [] || k[|k| - 1] != '/'
    ensures forall i :: |k| <= i < |name| ==> name[i] == '/'
  {
    StripTrailingSlashes(name)
  }

  /** The directories `createDirectory(withIntermediateDirectories:)` walks
      through before reaching `p`: every prefix of `p` that ends just before
      a `/`, shortest first. */
  function Ancestors(p: string): (r: seq<string>)
    ensures forall a :: a in r ==> |a| < |p| && a <= p && p[|a|] == '/'
  {
    if p == [] then []
    else
      var init := p[..|p| - 1];
      Ancestors(init) + (if p[|p| - 1] == '/' then [init] else [])
  }

  /** The ancestors are all such prefixes: none is left out. */
  lemma {:induction false} AncestorsAreAllPrefixes(p: string)
    ensures forall j :: 0 <= j < |p| && p[j] == '/' ==> p[..j] in Ancestors(p)
  {
    if p != [] {
      var init := p[..|p| - 1];
      AncestorsAreAllPrefixes(init);
      assert forall j :: 0 <= j < |init| ==> p[..j] == init[..j] && p[j] == init[j];
    }
  }

  /** The ancestors come outermost first. */
  lemma {:induction false} AncestorsShortestFirst(p: string)
    ensures forall i, k :: 0 <= i < k < |Ancestors(p)| ==> |Ancestors(p)[i]| < |Ancestors(p)[k]|
  {
    if p != [] {
      AncestorsShortestFirst(p[..|p| - 1]);
    }
  }
}

=== FILE: scenarios.dfy ===
/** The situations the repository's unit test walks through, on a sample
    EPUB holding five entries: a missing archive, listing, reading the
    `mimetype` entry, reading a directory name that is not an entry,
    validating, an unsupported `.cbz`, a web URL, and extraction. */
module Scenarios {
  import opened Errors
  import opened Text
  import opened Paths
  import opened EntryNames
  import opened Archive
  import opened Packaging
  import opened Destination
  import opened EntryLoop
  import opened EntryRead
  import opened EPubHelper

  /** The test finds its sample files in a resource bundle whose location
      it does not fix, so the bundle directory is a parameter.  The path is
      spelled `base.ext` so that `SupportedIffKnownExtension` applies to it
      as it stands. */
  function SamplePath(bundle: string): string {
    bundle + "/Sample" + "." + "epub"
  }

  /** The same book under the `.cbz` extension. */
  function CbzPath(bundle: string): string {
    bundle + "/Sample" + "." + "cbz"
  }

  const MissingPath: string := "Sample.epub"

  const SampleNames: seq<string> := [
    "mimetype",
    "META-INF/container.xml",
    "OEBPS/content.opf",
    "OEBPS/Text/Section0001.xhtml",
    "OEBPS/toc.ncx"
  ]

  /** A stored, undamaged, unencrypted file entry without a date. */
  function PlainEntry(name: string, payload: seq<byte>): Entry {
    Entry(name, payload, false, true, Plain, 0, TmUnz(0, 0, 0, 0, 0, 0))
  }

  /** The stored bytes of the `mimetype` entry. */
  function MimetypePayload(): (bs: seq<byte>)
    ensures |bs| == 20
  {
    ConstantsAreAscii();
    AsciiBytes(MimetypeContent)
  }

  /** The sample's entries in storage order, all plain and faultless. */
  function SampleEntries(): (es: seq<Entry>)
    ensures |es| == |SampleNames|
    ensures forall i :: 0 <= i < |es| ==> es[i].rawName == SampleNames[i] && !IsDirEntry(es[i])
    ensures es[0].payload == MimetypePayload()
  {
    [PlainEntry(SampleNames[0], MimetypePayload()),
     PlainEntry(SampleNames[1], []),
     PlainEntry(SampleNames[2], []),
     PlainEntry(SampleNames[3], []),
     PlainEntry(SampleNames[4], [])]
  }

  /** The sample archive as the bundle stores it: a conforming header and
      the five entries. */
  function SampleFile(): Item {
    File(Some(ConformingHeader()), Some(SampleEntries()))
  }

  /** A volume holding the sample under both of its names, and nothing at
      the relative path the test asks for first. */
  predicate HoldsSamples(vol: Volume, bundle: string) {
    && SamplePath(bundle) in vol && vol[SamplePath(bundle)] == SampleFile()
    && CbzPath(bundle) in vol && vol[CbzPath(bundle)] == SampleFile()
    && MissingPath !in vol
  }

  /** One volume that holds both samples. */
  function SampleVolume(bundle: string): Volume {
    map[SamplePath(bundle) := SampleFile(), CbzPath(bundle) := SampleFile()]
  }

  /** The bundle holding the two sample files is such a volume. */
  lemma SampleVolumeHoldsSamples(bundle: string)
    ensures HoldsSamples(SampleVolume(bundle), bundle)
  {
    var i := |bundle| + 8;
    assert SamplePath(bundle)[i] == 'e' && CbzPath(bundle)[i] == 'c';
    assert |MissingPath| < |SamplePath(bundle)|;
    if bundle == [] {
      assert CbzPath(bundle)[0] == '/' != MissingPath[0];
    } else {
      assert |MissingPath| < |CbzPath(bundle)|;
    }
  }

  /** None of the sample names holds a NUL, a `\`, or a trailing `/`. */
  lemma SampleNamesArePlain()
    ensures forall i, j :: 0 <= i < |SampleNames| && 0 <= j < |SampleNames[i]| ==>
              SampleNames[i][j] != '\0' && SampleNames[i][j] != '\\'
    ensures forall i :: 0 <= i < |SampleNames| ==> SampleNames[i][|SampleNames[i]| - 1] != '/'
  {
  }

  /** Every sample entry is reported, and keyed, under its stored name. */
  lemma SampleEntriesKeepTheirNames()
    ensures forall i :: 0 <= i < |SampleEntries()| ==> NameOf(SampleEntries()[i]) == SampleNames[i]
    ensures forall i :: 0 <= i < |SampleEntries()| ==> KeyOf(SampleEntries()[i]) == SampleNames[i]
  {
    SampleNamesArePlain();
    var es := SampleEntries();
    forall i | 0 <= i < |es|
      ensures NameOf(es[i]) == SampleNames[i] && KeyOf(es[i]) == SampleNames[i]
    {
      var n := SampleNames[i];
      CStringOfNulFree(n);
      NormalizeKeepsUnixNames(n);
      assert StripTrailingSlashes(n) == n;
    }
  }

  /** Lines 29-36 of the test: a relative path that names nothing. */
  lemma MissingArchiveIsNotFound(bundle: string, vol: Volume)
    requires HoldsSamples(vol, bundle)
    ensures EntriesOfZipAt(MissingPath, None, vol) == Err(FileNotFound(MissingPath))
  {
  }

  /** The sample exists, has a supported extension and opens. */
  lemma SampleOpens(bundle: string, vol: Volume)
    requires HoldsSamples(vol, bundle)
    ensures Exists(vol, SamplePath(bundle)) && IsSupportedPath(SamplePath(bundle))
    ensures Entries(vol, SamplePath(bundle)) == Some(SampleEntries())
  {
    SampleIsSupported(bundle);
    SampleHasEntries();
  }

  /** Step of `SampleOpens`. The facts about the sample are kept in small
      lemmas so that each proof unfolds only the literals it needs. */
  lemma SampleIsSupported(bundle: string)
    ensures IsSupportedPath(SamplePath(bundle))
  {
    var base := bundle + "/Sample";
    assert base != [] && base[|base| - 1] != '/' by {
      assert base[|base| - 1] == "/Sample"[6];
    }
    NamedEpubIsSupported(base);
  }

  /** Step of `SampleIsSupported`: a name followed by `.epub` passes. */
  lemma NamedEpubIsSupported(base: string)
    requires base != [] && base[|base| - 1] != '/'
    ensures IsSupportedPath(base + "." + "epub")
  {
    var ext := "epub";
    assert forall i :: 0 <= i < |ext| ==> ext[i] != '.' && ext[i] != '/' by {
      assert ext == [ext[0], ext[1], ext[2], ext[3]];
    }
    SupportedIffKnownExtension(base, ext);
    assert Lower(ext) == ext by {
      LowerKeepsLowercase(ext);
    }
  }

  /** Step of `SampleOpens`. */
  lemma SampleHasEntries()
    ensures SampleFile().archive == Some(SampleEntries()) && SampleEntries() != []
  {
  }

  /** No sample entry has a fault, whether CRCs are checked or not. */
  lemma SampleFaultless(bundle: string, checkCrc: bool)
    ensures forall i :: 0 <= i < |SampleEntries()| ==> Fault(SamplePath(bundle), SampleEntries()[i], None, checkCrc).None?
  {
    SampleNamesArePlain();
    var es := SampleEntries();
    forall i | 0 <= i < |es|
      ensures Fault(SamplePath(bundle), es[i], None, checkCrc).None?
    {
      CStringOfNulFree(SampleNames[i]);
    }
  }

  /** Lines 40-51: the five names, in storage order. */
  lemma SampleListing(bundle: string, vol: Volume)
    requires HoldsSamples(vol, bundle)
    ensures EntriesOfZipAt(SamplePath(bundle), None, vol) == Ok(SampleNames)
  {
    SampleOpens(bundle, vol);
    SampleFaultless(bundle, false);
    SampleListingNames();
  }

  /** Lines 53-54: the `mimetype` entry holds `application/epub+zip`. */
  lemma SampleMimetype(bundle: string, vol: Volume)
    requires HoldsSamples(vol, bundle)
    ensures DataOf("mimetype", SamplePath(bundle), None, vol) == Ok(MimetypePayload())
    ensures AsciiDecode(MimetypePayload()) == Some(MimetypeContent)
  {
    SampleOpens(bundle, vol);
    var es := SampleEntries();
    SampleMimetypeIsFirst();
    assert ReadNamed(es, "mimetype", None) == Ok(es[0].payload);
    ConstantsAreAscii();
    DecodeIsEncodingInverse(MimetypePayload(), MimetypeContent);
  }

  /** Step of `SampleMimetype`: `mimetype` is the first entry. */
  lemma SampleMimetypeIsFirst()
    ensures Locate(SampleEntries(), "mimetype") == Some(0)
  {
    SampleNamesArePlain();
    CStringOfNulFree("mimetype");
    assert NameMatches(SampleEntries()[0], "mimetype");
  }

  /** Lines 56-58: `OEBPS` is only a directory prefix, not an entry. */
  lemma SampleDirectoryIsNotAnEntry(bundle: string, vol: Volume)
    requires HoldsSamples(vol, bundle)
    ensures DataOf("OEBPS", SamplePath(bundle), None, vol) == Err(FileNotFound("OEBPS"))
  {
    SampleOpens(bundle, vol);
    SampleHasNoOebpsEntry();
    OebpsIsAscii();
    assert ReadNamed(SampleEntries(), "OEBPS", None) == Err(FileNotFound("OEBPS"));
  }

  /** Step of `SampleDirectoryIsNotAnEntry`. */
  lemma OebpsIsAscii()
    ensures IsAscii("OEBPS")
  {
  }

  /** Step of `SampleDirectoryIsNotAnEntry`: no entry is named `OEBPS` in
      any case. */
  lemma SampleHasNoOebpsEntry()
    ensures Locate(SampleEntries(), "OEBPS").None?
  {
    SampleNamesArePlain();
    var es := SampleEntries();
    CStringOfNulFree("OEBPS");
    forall i | 0 <= i < |es|
      ensures !NameMatches(es[i], "OEBPS")
    {
      CStringOfNulFree(SampleNames[i]);
      assert |Lower(SampleNames[i])| != |Lower("OEBPS")|;
    }
  }

  /** Lines 63-67: the sample passes validation. */
  lemma SampleIsValid(bundle: string, vol: Volume)
    requires HoldsSamples(vol, bundle)
    ensures ValidateZipAtPath(SamplePath(bundle), vol) == Ok(())
  {
    SampleIsSupported(bundle);
    assert Contents(vol, SamplePath(bundle)) == Some(ConformingHeader());
    AcceptedWhenMimetypeFirst(SamplePath(bundle), vol);
  }

  /** Lines 69-76: a `.cbz` file is refused before it is opened, although it
      is a well-formed archive. */
  lemma CbzIsNotSupported(bundle: string, vol: Volume)
    requires HoldsSamples(vol, bundle)
    ensures EntriesOfZipAtUrl(Url(true, CbzPath(bundle)), None, vol) == Err(FileNotSupport(CbzPath(bundle)))
  {
    CbzExtensionRefused(bundle);
  }

  /** Step of `CbzIsNotSupported`. */
  lemma CbzExtensionRefused(bundle: string)
    ensures !IsSupportedPath(CbzPath(bundle))
  {
    var base := bundle + "/Sample";
    assert base != [] && base[|base| - 1] != '/' by {
      assert base[|base| - 1] == "/Sample"[6];
    }
    NamedCbzIsRefused(base);
  }

  /** Step of `CbzExtensionRefused`: a name followed by `.cbz` is refused. */
  lemma NamedCbzIsRefused(base: string)
    requires base != [] && base[|base| - 1] != '/'
    ensures !IsSupportedPath(base + "." + "cbz")
  {
    var ext := "cbz";
    assert forall i :: 0 <= i < |ext| ==> ext[i] != '.' && ext[i] != '/' by {
      assert ext == [ext[0], ext[1], ext[2]];
    }
    SupportedIffKnownExtension(base, ext);
    assert Lower(ext) == ext by {
      LowerKeepsLowercase(ext);
    }
    assert ext[0] != "zip"[0];
  }

  /** Lines 78-85: a web URL is refused first. */
  lemma WebUrlIsNotFile(path: string, vol: Volume)
    ensures EntriesOfZipAtUrl(Url(false, path), None, vol) == Err(NotFile(Url(false, path)))
  {
  }

  /** No two sample entries share a key, and no file entry lies on the way
      to another. */
  lemma SampleIsClean()
    ensures Clean(SampleEntries())
  {
    SampleEntriesKeepTheirNames();
    SampleNameLengthsDiffer();
    SampleNamesAreNotPrefixes();
    CleanByKeys(SampleEntries(), SampleNames);
  }

  /** Step of `SampleIsClean`: the five names have five lengths. */
  lemma SampleNameLengthsDiffer()
    ensures forall i, j :: 0 <= i < j < |SampleNames| ==> |SampleNames[i]| != |SampleNames[j]|
  {
  }

  /** Step of `SampleIsClean`: no name is a proper prefix of another. */
  lemma SampleNamesAreNotPrefixes()
    ensures forall i, j :: 0 <= i < |SampleNames| && 0 <= j < |SampleNames| ==>
              !(|SampleNames[j]| < |SampleNames[i]| && SampleNames[j] <= SampleNames[i])
  {
    forall i, j | 0 <= i < |SampleNames| && 0 <= j < |SampleNames|
      ensures !(|SampleNames[j]| < |SampleNames[i]| && SampleNames[j] <= SampleNames[i])
    {
      NoSampleNameIsAPrefix(i, j);
    }
  }

  /** Cleanliness read off the keys alone: distinct lengths, and no key a
      proper prefix of another. */
  lemma CleanByKeys(es: seq<Entry>, keys: seq<string>)
    requires |es| == |keys|
    requires forall i :: 0 <= i < |es| ==> KeyOf(es[i]) == keys[i]
    requires forall i, j :: 0 <= i < j < |keys| ==> |keys[i]| != |keys[j]|
    requires forall i, j :: 0 <= i < |keys| && 0 <= j < |keys| ==> !(|keys[j]| < |keys[i]| && keys[j] <= keys[i])
    ensures Clean(es)
  {
  }

  /** Step of `SampleNamesAreNotPrefixes`, for one pair of names. */
  lemma NoSampleNameIsAPrefix(i: nat, j: nat)
    requires i < |SampleNames| && j < |SampleNames|
    ensures !(|SampleNames[j]| < |SampleNames[i]| && SampleNames[j] <= SampleNames[i])
  {
    var a, p := SampleNames[j], SampleNames[i];
    if |a| < |p| {
      assert a[0] != p[0] || a[1] != p[1] || a[6] != p[6];
    }
  }

  /** Lines 87-95: extracting the sample with `overwrite` on succeeds
      whether the destination is new or an existing directory (which is
      removed first), and every reported name exists under it; a plain file
      in the way is refused. */
  lemma SampleExtraction(bundle: string, vol: Volume, toPath: string, status: DestStatus)
    requires HoldsSamples(vol, bundle)
    requires toPath != ""
    ensures var r := UnzipAt(SamplePath(bundle), toPath, None, true, vol, status, true);
            && (status == ExistsAsFile ==> r == Err(NotDirectory(toPath)))
            && (status != ExistsAsFile ==>
                  && r.Ok? && r.value.names == SampleNames
                  && forall i :: 0 <= i < |SampleNames| ==> SampleNames[i] in r.value.dest)
  {
    var opts := Options(toPath, true, true);
    SampleOpens(bundle, vol);
    if status != ExistsAsFile {
      SampleWalk(bundle, toPath);
      assert PrepareDestination(toPath, status, true, true).Ok?;
      assert PasswordArgument(None) == None;
      assert UnzipWith(SamplePath(bundle), None, opts, vol)
          == Walk(SamplePath(bundle), SampleEntries(), None, opts, EmptyDest);
    }
  }

  /** Step of `SampleExtraction`: the loop on the sample. */
  lemma SampleWalk(bundle: string, toPath: string)
    requires toPath != ""
    ensures var w := Walk(SamplePath(bundle), SampleEntries(), None, Options(toPath, true, true), EmptyDest);
            && w.Ok? && w.value.names == SampleNames
            && forall i :: 0 <= i < |SampleNames| ==> SampleNames[i] in w.value.dest
  {
    SampleIsReady(bundle);
    SampleListingNames();
    CleanArchiveExtracts(SamplePath(bundle), SampleEntries(), SampleNames, Options(toPath, true, true));
  }

  /** What extracting a whole archive into a fresh destination needs: no
      faulty entry, clean keys, and no file entry keyed on the destination
      itself. */
  predicate ReadyToExtract(path: string, es: seq<Entry>, keys: seq<string>, checkCrc: bool) {
    && |es| == |keys|
    && (forall i :: 0 <= i < |es| ==> Fault(path, es[i], None, checkCrc).None?)
    && (forall i :: 0 <= i < |es| ==> KeyOf(es[i]) == keys[i] && |keys[i]| > 0)
    && Clean(es)
  }

  /** Step of `SampleWalk`. */
  lemma SampleIsReady(bundle: string)
    ensures ReadyToExtract(SamplePath(bundle), SampleEntries(), SampleNames, true)
  {
    SampleFaultless(bundle, true);
    SampleKeys();
    SampleIsClean();
  }

  /** Step of `SampleIsReady`: each name is its own, non-empty key. */
  lemma SampleKeys()
    ensures forall i :: 0 <= i < |SampleEntries()| ==> KeyOf(SampleEntries()[i]) == SampleNames[i] && |SampleNames[i]| > 0
  {
    SampleEntriesKeepTheirNames();
    forall i | 0 <= i < |SampleEntries()|
      ensures |SampleNames[i]| > 0
    {
      SampleNameIsNonEmpty(i);
    }
  }

  /** Step of `SampleKeys`, for one name. */
  lemma SampleNameIsNonEmpty(i: nat)
    requires i < |SampleNames|
    ensures |SampleNames[i]| > 0
  {
  }

  /** Extraction of a clean, faultless archive into a fresh destination,
      with the keys given by name. */
  lemma CleanArchiveExtracts(path: string, es: seq<Entry>, keys: seq<string>, opts: Options)
    requires opts.toPath != ""
    requires ReadyToExtract(path, es, keys, opts.checkCrc)
    ensures var w := Walk(path, es, None, opts, EmptyDest);
            && w.Ok? && w.value.names == ListingNames(es)
            && forall i :: 0 <= i < |keys| ==> keys[i] in w.value.dest
  {
    FreshDestinationIsSound(es);
    CleanExtractionPlacesEveryEntry(path, es, None, opts, EmptyDest);
  }

  /** Step of `SampleListing` and `SampleWalk`. */
  lemma SampleListingNames()
    ensures ListingNames(SampleEntries()) == SampleNames
  {
    SampleEntriesKeepTheirNames();
  }
}

=== FILE: text.dfy ===
/** Characters, bytes and the three conversions the helper relies on:
    ASCII decoding of raw bytes, ASCII case folding (as `strcasecmp` and
    `lowercased()` do for the letters that matter here) and reading a
    NUL-terminated C string. */
module Text {
  import opened Errors

  /** An octet of a file. */
  type byte = b: int | 0 <= b < 256

  /** Every character has a code below 128. */
  predicate IsAscii(s: string) {
    forall i :: 0 <= i < |s| ==> s[i] as int < 128
  }

  /** Every byte is below 128. */
  predicate AllAscii(bs: seq<byte>) {
    forall i :: 0 <= i < |bs| ==> bs[i] < 128
  }

  /** The ASCII encoding of an ASCII string, one byte per character. */
  function AsciiBytes(s: string): (bs: seq<byte>)
    requires IsAscii(s)
    ensures |bs| == |s|
    ensures forall i :: 0 <= i < |s| ==> bs[i] == s[i] as int
  {
    seq(|s|, i requires 0 <= i < |s| => s[i] as int)
  }

  /** `String(bytes:encoding: .ascii)`: no string at all when some byte is
      outside ASCII, otherwise one character per byte. */
  function AsciiDecode(bs: seq<byte>): (s: Option<string>)
    ensures s.Some? <==> AllAscii(bs)
    ensures s.Some? ==> |s.value| == |bs| && IsAscii(s.value)
    ensures s.Some? ==> forall i :: 0 <= i < |bs| ==> s.value[i] as int == bs[i]
  {
    if AllAscii(bs) then Some(Chars(bs)) else None
  }

  /** One character per byte. */
  function Chars(bs: seq<byte>): (s: string)
    ensures |s| == |bs|
    ensures forall i :: 0 <= i < |bs| ==> s[i] as int == bs[i]
  {
    if bs == [] then [] else [bs[0] as char] + Chars(bs[1..])
  }

  /** Decoding gives back exactly the string whose encoding the bytes are. */
  lemma DecodeIsEncodingInverse(bs: seq<byte>, s: string)
    requires IsAscii(s)
    ensures AsciiDecode(bs) == Some(s) <==> bs == AsciiBytes(s)
  {
    if bs == AsciiBytes(s) {
      var d := AsciiDecode(bs);
      assert d.Some?;
      assert forall i :: 0 <= i < |s| ==> d.value[i] == s[i];
      assert d.value == s;
    }
    if AsciiDecode(bs) == Some(s) {
      assert forall i :: 0 <= i < |s| ==> bs[i] == AsciiBytes(s)[i];
    }
  }

  /** ASCII lower-casing of one character; every other character is kept. */
  function LowerChar(c: char): (l: char)
    ensures 'A' <= c <= 'Z' ==> l as int == c as int + 32
    ensures !('A' <= c <= 'Z') ==> l == c
  {
    if 'A' <= c <= 'Z' then (c as int + 32) as char else c
  }

  /** `lowercased()`, restricted to the ASCII letters. */
  function Lower(s: string): (l: string)
    ensures |l| == |s|
    ensures forall i :: 0 <= i < |s| ==> l[i] == LowerChar(s[i])
  {
    seq(|s|, i requires 0 <= i < |s| => LowerChar(s[i]))
  }

  /** Lower-casing is idempotent and leaves no upper-case ASCII letter. */
  lemma LowerIsIdempotent(s: string)
    ensures Lower(Lower(s)) == Lower(s)
    ensures forall i :: 0 <= i < |s| ==> !('A' <= Lower(s)[i] <= 'Z')
  {
    assert forall i :: 0 <= i < |s| ==> Lower(Lower(s))[i] == Lower(s)[i];
  }

  /** Text without upper-case ASCII letters is its own lower-case form. */
  lemma LowerKeepsLowercase(s: string)
    requires forall i :: 0 <= i < |s| ==> !('A' <= s[i] <= 'Z')
    ensures Lower(s) == s
  {
  }

  /** Case-insensitive equality in the sense of `strcasecmp` returning 0. */
  predicate SameIgnoringCase(a: string, b: string) {
    Lower(a) == Lower(b)
  }

  /** `String(cString:)` and C string comparison: the characters before the
      first NUL. */
  function CString(raw: string): (s: string)
    ensures s <= raw
    ensures forall i :: 0 <= i < |s| ==> s[i] != '\0'
    ensures |s| < |raw| ==> raw[|s|] == '\0'
  {
    if raw == [] || raw[0] == '\0' then [] else [raw[0]] + CString(raw[1..])
  }

  /** A string without NUL is its own C string. */
  lemma CStringOfNulFree(raw: string)
    requires forall i :: 0 <= i < |raw| ==> raw[i] != '\0'
    ensures CString(raw) == raw
  {
  }
}
